=== FILE: README.md ===
# DevPath AI frontend — client-side session and report model

This project models the client-side logic of the DevPath AI web frontend in
Dafny. That logic is the state handlers and pure helpers behind three pages
and a small API client:

- **Report-session controller** (`Dashboard`). This is the dashboard page's
  `loadReportHistory`, `handleFullAnalysis`, `handleLoadReport`,
  `handleDeleteReport` and `handleLogout`. Each is modelled as one atomic
  step over an immutable `DashboardState`.
  - Like the page's closures, a handler reads the current report and the
    username from the state as it was when the handler was invoked, and
    writes into the evolving state.
  - So the follow-up history reload inside a handler sees the *old* report
    and username. Three lemmas state what this implies:
    - `DeleteCurrentClears`: after deleting the current report, nothing is
      auto-loaded.
    - `FreshAnalysisReplacedByLatest`: the first fresh analysis of a session
      is replaced by the newest saved report.
    - `FlagshipOwnerWinsInHistory`: the flagship-derived username
      overwrites the hub-derived one.
- **API client** (`ApiClient`). This covers:
  - how the request is assembled: base URL, `credentials: "omit"`, and the
    header merge in which a caller's `headers` replace the default
    Content-Type;
  - how a non-OK response becomes an error message;
  - the rethrow policy: `Error` values pass unchanged, anything else becomes
    "Unknown error occurred";
  - the request shapes of `healthCheck`, `fullAnalysis` (a Bearer
    credential as in section 2.1 of RFC 6750), `generateTrack` and
    `marketMatch`.
- **Auth page and token store** (`AuthPage`, `AuthStore`). This covers:
  - validation of a manually entered token;
  - the authorization-code callback exchange (the `code` parameter of
    section 4.1.2 of RFC 6749);
  - the fallback to manual entry when no client ID is configured;
  - the persisted `githubToken` cell.
- **Derived-analysis requesters** (`CareerTrackSection`,
  `MarketMatchSection`). This covers:
  - the guards checked before any request;
  - request construction, with a JSON round trip for the body;
  - the result and error state;
  - the integer match score;
  - the "first k chips, +N more" truncation (`SkillChips`).
- **String helpers** (`Utils`, `JsStrings`). This covers:
  - `formatSkillName` (split on `-`, capitalise each segment, join with a
    space);
  - the archetype classifier behind `getArchetypeColor` and
    `getArchetypeIcon`;
  - the JavaScript string built-ins they rely on: `trim`, `includes`,
    `split`, `join`, `toLowerCase` and `toUpperCase`.
- **Analysis panel** (`AnalysisSection`). This covers the four-way panel
  precedence and which report sections are visible.

Network results, timers, toasts, routing and persistence are inputs or
outputs of the model:

- An API call's settled result is an `Outcome<T>`: `Ok(value)` or
  `Err(thrown)`.
- A `fetch` response is a `Transport<T>`.
- The value of `window.confirm` is a boolean.
- A navigation is a recorded route (plus a delay, where the source has one).

The dashboard uses some store fields and API methods that neither
`src/store/auth.ts` nor `src/lib/api.ts` defines. These are `jwtToken`,
`githubUsername`, `setGithubUsername`, `clearJwtToken`, `analyze`,
`getReportHistory`, `getReport` and `deleteReport`. They are modelled as
abstract fields and outcomes.

Points where the code behaves differently from what a reader might expect (the model follows the code):

- No 401 handling: the client never clears the credential on a 401.
- No special case for 204.
- No canned per-status messages.
- The POST path is `/full-analysis`.
- The match score has no guard for zero skills.
- A username found in the report need not stay fixed. In the history path
  both scans are gated by the username read when the reload started, so the
  flagship scan also runs after a successful hub scan. With
  `setGithubUsername` taken as a plain set, its result is the one that
  remains.

## Model

| member | source | states |
|---|---|---|
| Dashboard.FirstOwner | src/app/dashboard/page.tsx:73-84 | the username found is the part before the first "/" of the FIRST name that contains "/" and has a non-empty owner part; it is found iff such a name exists, and it is non-empty and slash-free |
| Dashboard.AnalysisUsername | src/app/dashboard/page.tsx:129-141 | with a truthy username the username is left unchanged; otherwise it becomes the first hub owner when some hub name is a candidate and stays as it was when none is; any new value is non-empty and slash-free |
| Dashboard.HistoryUsername | src/app/dashboard/page.tsx:70-102 | with a truthy snapshot username the current username is kept; otherwise a flagship owner, when one exists, is the final value, else a hub owner, else the current username; any new value is non-empty and slash-free |
| Dashboard.LeadingSlashSkipped | src/app/dashboard/page.tsx:75-77 | a name such as "/x" (empty owner part) is skipped and the next name's owner is used |
| Dashboard.FlagshipOwnerWinsInHistory | src/app/dashboard/page.tsx:70-103 | with no username, no report in the snapshot and candidates in both lists, a history load ends with the flagship owner while a fresh analysis takes the hub owner |
| Dashboard.LoadHistoryFrom | src/app/dashboard/page.tsx:55-110 | history is replaced wholesale; history[0] is fetched and made current (report, id, created_at) exactly when history is non-empty and the snapshot had no report; errors are swallowed; loading is off afterwards; nothing else changes |
| Dashboard.OnMount | src/app/dashboard/page.tsx:44-53 | without a token the page routes to /auth and loads nothing; with one it loads the history |
| Dashboard.HandleFullAnalysis | src/app/dashboard/page.tsx:112-158 | no token: no change and no call; failure: the message (or "Failed to analyze profile") is recorded and report, id and date are untouched; success: the error is cleared, the report is installed as unsaved with date `now`, and the history is always reloaded from the same snapshot (calls Analyze, GetReportHistory, then GetReport of the newest entry only when the snapshot had no report); a failed reload keeps the old history; an auto-load replaces the fresh report with the newest entry and the username is then what the history scans make of the analysis scan's result; loading and analysing are off afterwards |
| Dashboard.FreshAnalysisReplacedByLatest | src/app/dashboard/page.tsx:62-67 | a fresh analysis whose snapshot had no report is replaced by history[0] (report, id, date) on the follow-up reload |
| Dashboard.ReanalyzeShowsFreshReport | src/app/dashboard/page.tsx:119-121 | re-analysing over a shown report keeps the fresh report on screen with the new date and no id, and the analysis tab renders it |
| Dashboard.FindItem | src/app/dashboard/page.tsx:165 | the first history entry with the given id, found iff some entry has it |
| Dashboard.HandleLoadReport | src/app/dashboard/page.tsx:160-175 | success installs report and id and switches to the analysis tab; the date becomes the entry's created_at only when the id is listed and is kept otherwise; failure changes nothing |
| Dashboard.HandleDeleteReport | src/app/dashboard/page.tsx:177-199 | a declined confirmation makes no call and no change; a failed delete makes one call and changes nothing; a successful one clears report, id and date when the current report was deleted and keeps them otherwise, then reloads the history from the same snapshot: the history becomes the fetched one, loading is off, and token, tab, route, error and analysing flag are unchanged |
| Dashboard.DeleteCurrentClears | src/app/dashboard/page.tsx:185-192 | deleting the current report clears report, id and date together, and the reload does not auto-load another report |
| Dashboard.DeleteOtherKeeps | src/app/dashboard/page.tsx:185-192 | while a report is shown, deleting another id leaves the current report, id and date as they were and fetches no report |
| Dashboard.NoAutoLoadOverReport | src/app/dashboard/page.tsx:62 | with a report in the snapshot, a history load neither fetches nor changes the current report, id, date or username |
| Dashboard.HandleLogout | src/app/dashboard/page.tsx:201-205 | the handler itself clears the token and pushes "/"; nothing else changes |
| Dashboard.LogoutEndsAtAuth | src/app/dashboard/page.tsx:44-53 | the cleared token re-runs the mount effect, which pushes "/auth" and loads nothing, so a logout ends at /auth; a later analysis makes no call and changes nothing |
| Dashboard.SelectTab | src/app/dashboard/page.tsx:313 | only the active tab changes |
| Dashboard.InitialState | src/app/dashboard/page.tsx:29-41 | the page starts consistent on the analysis tab with the stored token and username, no report, an empty history, and nothing loading, analysing or failed |
| Dashboard.HeaderFollowsDate | src/app/dashboard/page.tsx:339 | in a consistent state the date line and Re-analyze button appear exactly when the date is a non-empty string |
| Dashboard.FailedAnalysisPanel | src/app/dashboard/page.tsx:149-153 | after a failed analysis the panel shows the error's message, or "Failed to analyze profile" for a non-Error value; an Error with an empty message is not shown, and the previous report (or the empty state) stays |
| Dashboard.HistoryTabView | src/app/dashboard/page.tsx:393-452 | spinner iff loading, empty notice iff not loading and no entries, otherwise one row per entry with CURRENT exactly on the entry whose id is the current id |
| Dashboard.HistoryLoadsPreserveConsistent | src/app/dashboard/page.tsx:44-67 | mounting and loading the history never leave a report id or date without a report |
| Dashboard.AnalysisPreservesConsistent | src/app/dashboard/page.tsx:119-121 | a fresh analysis never leaves a report id or date without a report |
| Dashboard.LoadAndDeletePreserveConsistent | src/app/dashboard/page.tsx:163-192 | loading and deleting never leave a report id or date without a report |
| ApiClient.ApiBase | src/lib/api.ts:12 | the configured base if it is a non-empty string, else "http://localhost:8000" |
| ApiClient.BuildRequest | src/lib/api.ts:17-24 | URL is base + path, credentials are "omit", verb and body come from the options; caller headers replace the merged object, so Content-Type is present iff the caller gave no headers or included it |
| ApiClient.Fetch | src/lib/api.ts:14-47 | success iff the status is 200-299 and the body parsed, with the parsed value; a non-OK status throws an Error with the derived message; every failure is an Error, non-Error values become "Unknown error occurred" |
| ApiClient.ErrorMessage | src/lib/api.ts:26-35 | the message is always one the response supplied (a truthy detail, a truthy message, or a non-empty body text where the body is not a JSON object) or the default "API Error {status}: {statusText}" |
| ApiClient.ErrorMessageCases | src/lib/api.ts:27-35 | object body: a truthy detail wins, else a truthy message, else the default "API Error {status}: {statusText}"; unparsable or null body: the body text if non-empty, else the default; other JSON values: the default |
| ApiClient.NullBodyReportsItsText | src/lib/api.ts:31-34 | a body of `null` makes the message "null" (the property read throws into the catch) |
| ApiClient.ErrorMessageIgnoresStatus | src/lib/api.ts:26-35 | the status and status text matter only through the default message: two responses whose messages differ either differ in body or fall back to the default |
| ApiClient.DefaultMessageInjective | src/lib/api.ts:28 | distinct (status, statusText) pairs give distinct default messages |
| ApiClient.ParseBearerCredential | src/lib/api.ts:64 | the "Bearer " credential gives back exactly the token |
| ApiClient.HealthCheckCall | src/lib/api.ts:52-54 | GET of base + "/" with only the default Content-Type header and no body |
| ApiClient.FullAnalysisCall | src/lib/api.ts:60-67 | POST to base + "/full-analysis" whose only header is Authorization (Content-Type is dropped), carrying the token as a Bearer credential, with no body |
| ApiClient.DecodeStringsJson | src/lib/api.ts:76 | a list of strings encoded as a JSON array decodes back to the same list |
| ApiClient.DecodeCareerTrackRequestJson | src/lib/api.ts:76 | a career-track request body decodes back to the request |
| ApiClient.DecodeMarketMatchRequestJson | src/lib/api.ts:87 | a market-match request body decodes back to the request |
| ApiClient.GenerateTrackCall | src/lib/api.ts:73-78 | POST to base + "/generate-track" with the default Content-Type and a body that decodes to the request |
| ApiClient.MarketMatchCall | src/lib/api.ts:84-89 | POST to base + "/market-match" with the default Content-Type and a body that decodes to the request |
| Decimal.NatToString | src/lib/api.ts:28 | the decimal text of the status is a non-empty digit string without a leading zero |
| Decimal.ParseNatToString | src/lib/api.ts:28 | reading the decimal text of the status back gives the status |
| Decimal.NatToStringInjective | src/lib/api.ts:28 | distinct statuses have distinct decimal texts |
| AuthStore.InitialStore | src/store/auth.ts:13 | the token starts as null |
| AuthStore.SetGithubToken | src/store/auth.ts:14 | stores exactly the given value, empty string and null included |
| AuthStore.ClearToken | src/store/auth.ts:15 | the token becomes null |
| AuthStore.TokenStoreLaws | src/store/auth.ts:14-15 | clearing is idempotent, setting null equals clearing, a later set overwrites an earlier one, and clearing after a set equals clearing |
| AuthPage.EditToken | src/app/auth/page.tsx:20 | the input text becomes the given text and every other view field and the store are unchanged |
| AuthPage.SetManualInput | src/app/auth/page.tsx:165 | the manual-input toggle takes the given value and every other view field and the store are unchanged |
| AuthPage.HandleSubmit | src/app/auth/page.tsx:75-89 | an empty or whitespace-only input changes nothing; otherwise the input is stored untrimmed, the dashboard navigation is scheduled after 1000 ms, and loading ends false |
| AuthPage.Exchange | src/app/auth/page.tsx:35-54 | non-OK: fails with `detail` if truthy, else with "HTTP {status}: {statusText}", where an unparsable error body counts as {}; an error body of `null` fails with the TypeError for reading `detail` of null; OK: succeeds with access_token iff the body is an object whose access_token is truthy; a `null` body fails with the TypeError for reading `access_token`, an unparsable one with its syntax error, any other body with "No access token received"; a network failure fails with the thrown message |
| AuthPage.HandleOAuthCallback | src/app/auth/page.tsx:32-60 | on success the token is stored and the dashboard navigation scheduled; on any failure nothing is stored and manual input is switched on; loading ends false either way |
| AuthPage.OnMount | src/app/auth/page.tsx:24-30 | the exchange runs iff the `code` parameter is a non-empty string, against base + "/auth/github/callback?code=" + code |
| AuthPage.CallbackUrl | src/app/auth/page.tsx:36 | the URL is the configured base (or "undefined" when unset) followed by "/auth/github/callback?code=" and then exactly the code, unencoded |
| AuthPage.HandleGitHubLogin | src/app/auth/page.tsx:62-73 | an unset or placeholder client ID switches to manual input without redirecting; otherwise the browser is sent to the GitHub authorize URL carrying that client ID; the store is untouched |
| AuthPage.AuthorizeUrl | src/app/auth/page.tsx:70-71 | the URL is the GitHub authorize endpoint, then the client id as the first query value, then the redirect URI origin + "/auth" and the "repo user" scope |
| AuthPage.LoginRedirectCarriesClientId | src/app/auth/page.tsx:70-72 | with a configured client id free of "&", the redirect goes to the authorize endpoint and its first query value reads back as exactly that client id; the store and the manual-input toggle are untouched |
| AuthPage.ManualAndOAuthAgree | src/app/auth/page.tsx:46-48 | a manual submit and a successful callback with the same token store the same value and schedule the same navigation |
| CareerTrackSection.SetTargetDomain | src/components/dashboard/CareerTrackSection.tsx:121 | only the target text changes |
| CareerTrackSection.GenerateDisabled | src/components/dashboard/CareerTrackSection.tsx:130 | the generate button is disabled while generating or without a report |
| CareerTrackSection.HandleGenerateTrack | src/components/dashboard/CareerTrackSection.tsx:29-65 | a blank target is rejected first, then an absent report or empty skill list, both with no request and no change; the request is a POST to base + "/generate-track" with the JSON Content-Type, carrying the full skill list and the untrimmed target; success stores the track with no error, failure stores the message and keeps the prior track; generating is off afterwards |
| CareerTrackSection.CurrentSkillsRow | src/components/dashboard/CareerTrackSection.tsx:86-107 | shown iff a report exists, as the first 10 formatted skills plus the overflow count |
| CareerTrackSection.EnabledPressSends | src/components/dashboard/CareerTrackSection.tsx:130 | with the button enabled, a non-blank target and skills present, a press sends a request, and pressing again sends the same one |
| MarketMatchSection.JobOptionsShape | src/components/dashboard/MarketMatchSection.tsx:21-42 | there are 20 job titles, all options are distinct, and only the placeholder is empty |
| MarketMatchSection.InitialMarketState | src/components/dashboard/MarketMatchSection.tsx:47-50 | the section starts with the placeholder selected (a valid option), no gap analysis, no error and not analysing |
| MarketMatchSection.AnalyzeDisabled | src/components/dashboard/MarketMatchSection.tsx:156 | the analyze button is disabled while analysing, without a report, or with the placeholder selected |
| MarketMatchSection.SelectJob | src/components/dashboard/MarketMatchSection.tsx:141-150 | the selection becomes the chosen option, and it stays one of the placeholder and the 20 titles; nothing else changes |
| MarketMatchSection.HandleAnalyze | src/components/dashboard/MarketMatchSection.tsx:52-86 | an empty selection is rejected first, then an empty or absent skill list, with no request; the request is a POST to base + "/market-match" with the JSON Content-Type and body {user_skills, job_title}; success stores the gap analysis, failure stores the message and keeps the prior one; analysing is off afterwards |
| MarketMatchSection.HandleAnalyzeKeepsSelection | src/components/dashboard/MarketMatchSection.tsx:52-86 | analysing never changes the selection, so it stays a valid option |
| MarketMatchSection.EnabledNeverRejectsJob | src/components/dashboard/MarketMatchSection.tsx:156 | with the button enabled the job guard never fires, and a request is sent iff the report has skills |
| MarketMatchSection.CurrentSkillsRow | src/components/dashboard/MarketMatchSection.tsx:107-128 | shown iff a report exists, as the first 12 formatted skills plus the overflow count |
| MarketMatchSection.RoundedPercent | src/components/dashboard/MarketMatchSection.tsx:276-281 | the result is 100·m/total rounded to the nearest integer, ties upward |
| MarketMatchSection.MatchScore | src/components/dashboard/MarketMatchSection.tsx:276-293 | defined iff m+n > 0; then it is 100·m/(m+n) rounded half-up, in [0,100], 100 when nothing is missing, 0 when nothing matches |
| MarketMatchSection.ScoreBounds | src/components/dashboard/MarketMatchSection.tsx:276-281 | any rounding of 100·m/total with m ≤ total lies in [0,100]; it is 100 when m = total and 0 when m = 0 |
| MarketMatchSection.ExtremesAlsoNearTheEnds | src/components/dashboard/MarketMatchSection.tsx:276-281 | the converse does not hold: 199 of 200 also scores 100, and 1 of 201 also scores 0 |
| MarketMatchSection.ScoreThreeOfTen | src/components/dashboard/MarketMatchSection.tsx:276-281 | 3 matching and 7 missing skills give 30 |
| MarketMatchSection.MatchedLine | src/components/dashboard/MarketMatchSection.tsx:298-303 | reads "{m} of {m+n} required skills matched" |
| MarketMatchSection.MatchedLineReadsBack | src/components/dashboard/MarketMatchSection.tsx:298-303 | the line reads back: its leading digits parse to the matching count, " of " follows, the next digits parse to the required count, and " required skills matched" ends it |
| Decimal.LeadingDigits | src/components/dashboard/MarketMatchSection.tsx:298-303 | the longest digit prefix of a text: a prefix made only of digits, followed by a non-digit unless it is the whole text |
| Decimal.LeadingDigitsOf | src/components/dashboard/MarketMatchSection.tsx:298-303 | a digit string followed by a non-digit (or nothing) is exactly the leading digits of the joined text |
| SkillChips.Truncate | src/components/dashboard/AnalysisSection.tsx:315-327 | min(len, k) chips, each the formatted skill at that position, with an overflow count exactly when len > k; chips plus overflow account for every skill |
| AnalysisSection.FormatAll | src/components/dashboard/AnalysisSection.tsx:270-281 | every skill is shown formatted, in order |
| AnalysisSection.FlagshipCard | src/components/dashboard/AnalysisSection.tsx:300-327 | a flagship card shows the project's name and summary and its first 4 skills with the "+N" overflow |
| AnalysisSection.RenderReport | src/components/dashboard/AnalysisSection.tsx:210-420 | the icon follows the archetype; the skill badge equals the skill count and every skill is shown formatted, in order; each path card shows its path's name, description and formatted skills; the flagship, path and project sections appear iff their lists are non-empty, and quality iff its text is non-empty |
| AnalysisSection.SelectPanel | src/components/dashboard/AnalysisSection.tsx:33-210 | loading iff analysing; otherwise the error panel iff the error is non-empty; otherwise the empty state iff there is no report; otherwise the rendered report |
| AnalysisSection.ErrorHidesReport | src/components/dashboard/AnalysisSection.tsx:131 | a non-empty error hides an existing report, and without an error that report is shown |
| Utils.FormatSkillName | src/lib/utils.ts:8-13 | the output has no "-", and it is empty iff the input is |
| Utils.ScanSplit | src/lib/utils.ts:9-12 | the split/capitalise/join pipeline equals one left-to-right pass that turns each "-" into a space and upper-cases the first character of every segment, so "a--b" becomes "A  B" |
| Utils.ScanNoDash | src/lib/utils.ts:9-12 | the pass never emits "-" and is empty iff its input is |
| Utils.FormatSkillNamePointwise | src/lib/utils.ts:11 | for input whose case mapping is one character per character, the length is kept; each "-" becomes " ", a segment's first character is upper-cased and every other character is unchanged |
| Utils.FormatSkillNameIdempotent | src/lib/utils.ts:8-13 | formatting a formatted name changes nothing |
| Utils.ClassifySpec | src/lib/utils.ts:15-29 | builder iff the lower-cased text contains "builder"; refiner iff it contains "refiner" but not "builder"; maintainer iff it contains "maintainer" but neither earlier word; otherwise the default |
| Utils.ColorAndIconAgree | src/lib/utils.ts:15-29 | both are read off the one classification, and each class has its own colour and its own icon: two labels share a colour iff they classify alike, and likewise for the icon |
| Utils.ClassifyIgnoresCase | src/lib/utils.ts:16 | classifying a lower-cased label gives the same archetype |
| JsStrings.TrimStart | src/app/auth/page.tsx:77 | removes exactly the leading whitespace run |
| JsStrings.TrimEnd | src/app/auth/page.tsx:77 | removes exactly the trailing whitespace run |
| JsStrings.TrimEmptyIffBlank | src/app/auth/page.tsx:77 | a trimmed token is empty iff the token is entirely whitespace |
| JsStrings.ContainsSpec | src/lib/utils.ts:17-19 | `includes` holds iff the pattern occurs at some position |
| JsStrings.Split | src/lib/utils.ts:10 | splitting yields at least one part, none containing the separator |
| JsStrings.JoinSplit | src/lib/utils.ts:10-12 | joining the parts of a split with the separator restores the string |
| JsStrings.FirstSegment | src/app/dashboard/page.tsx:75 | `split("/")[0]` is the longest slash-free prefix: a prefix without "/" that is followed by "/" unless it is the whole string |
| JsStrings.FirstSegmentOf | src/app/dashboard/page.tsx:75 | for a separator-free `a`, `(a + sep + b).split(sep)[0]` is `a` |
| ApiTypes.SkillsOf | src/components/dashboard/CareerTrackSection.tsx:35 | the skills the sections send: the report's skill list, or the empty list without a report |

## Left out

- Rendering, animation, styling, icons and toasts are left out. The model keeps only the data the page shows: panels, chip rows, history rows and header visibility.
- Real I/O is left out: `fetch`, `JSON.parse`, localStorage persistence under "devpath-auth", router navigation, `setTimeout`, `window.confirm` and the `window.location` redirect. Each one is an input outcome, a boolean, or a recorded navigation.
- The exact `JSON.stringify` text is not produced. A body is a JSON tree whose decoding gives back the request, and the key names follow `src/types/api.ts`.
- Async interleaving and React batching are left out. Each handler is one atomic step from its snapshot, and overlapping in-flight requests are not modelled.
- The intermediate `isLoadingHistory = true` and `isAnalyzing = true` states are not kept. Only their final values are, because each handler is one atomic step.
- What logout does to the username is unknown: `clearJwtToken` is not defined in `src/store/auth.ts`, so only the token is cleared.
- `src/types/api.ts` does not define `ReportHistoryItem`. It is modelled as an id and a creation timestamp, which are the only fields the page reads.
- Date and locale formatting (`toISOString`, `toLocaleString`) are left out. Timestamps are opaque strings and `now` is a parameter.
- `cn` (a wrapper over clsx and tailwind-merge) and the static pages (`src/app/page.tsx`, `src/app/explore/page.tsx`, `src/app/layout.tsx`) are left out because they contain no client logic worth modelling.
- The retry and analyze buttons of the analysis panel (src/components/dashboard/AnalysisSection.tsx:145, 195, 492) all invoke the one `onAnalyze` callback, which the dashboard binds to `handleFullAnalysis`. They are modelled by that single handler, not as separate members.
- MarketMatchSection.MatchScore: returns no score when m+n = 0, where the page computes `Math.round(NaN)` and renders "NaN". Rounding is exact half-up, so floating-point ties are not modelled: the page computes (29/200)·100, which in doubles is 14.499999999999998 and rounds to 14, while exact half-up of 29·100/200 = 14.5 gives 15.
- JsStrings.LowerChar and JsStrings.UpperChar map case for ASCII and Latin-1 only, including "ß" to "SS", "ÿ" to U+0178 and "µ" to U+039C. Other Unicode case mappings are not modelled, so Utils.FormatSkillNamePointwise is stated only for input whose case mapping is one character per character.
- AuthPage.Exchange: the message for a `null` success body is written with the V8 wording for reading a property of null. Other engines word it differently.
- AuthPage.HandleGitHubLogin: the authorize URL is built from the window origin, which is a parameter, and it is not URL-encoded, just as in the source.
- The token a manual submit stores is the `githubToken` of `src/store/auth.ts`. The dashboard's `jwtToken` is a separate abstract field, because nothing in `src/store/auth.ts` or `src/app/dashboard/page.tsx` connects the two.
- Dashboard.HistoryUsername: `setGithubUsername` is not defined in `src/store/auth.ts` and is modelled as a plain, unconditional set of the store field. A store that ignored a second write would keep the hub owner, so Dashboard.FlagshipOwnerWinsInHistory holds only under this reading.
- The generate and analyze button conditions (CareerTrackSection.GenerateDisabled, MarketMatchSection.AnalyzeDisabled) are predicates that carry no contract of their own; what they imply is stated by CareerTrackSection.EnabledPressSends and MarketMatchSection.EnabledNeverRejectsJob.

=== FILE: analysis_section.dfy ===
/**
 * Which analysis panel the dashboard shows, and what the full-report panel
 * is made of (which sections appear, and how many chips each project shows).
 */
module AnalysisSection {
  import opened Wrappers
  import opened Outcomes
  import opened ApiTypes
  import opened SkillChips
  import Utils

  datatype ProjectCard = ProjectCard(name: string, summary: string, skills: ChipRow)

  datatype PathCard = PathCard(name: string, description: string, skills: seq<string>)

  /** The full-report panel; a section that is not drawn is `None`. */
  datatype ReportView = ReportView(
    icon: string,
    archetype: string,
    skillCount: nat,
    skills: seq<string>,
    flagship: Option<seq<ProjectCard>>,
    quality: Option<string>,
    paths: Option<seq<PathCard>>,
    ideas: Option<seq<GeneratedProject>>)

  datatype Panel = Loading | ErrorPanel(message: string) | EmptyState | ReportPanel(view: ReportView)

  function FormatAll(xs: seq<string>): (r: seq<string>)
    ensures |r| == |xs| && forall i | 0 <= i < |xs| :: r[i] == Utils.FormatSkillName(xs[i])
  {
    seq(|xs|, i requires 0 <= i < |xs| => Utils.FormatSkillName(xs[i]))
  }

  /** A flagship project card: four skill chips, then a bare "+N" badge. */
  function FlagshipCard(p: RepoReport): (c: ProjectCard)
    ensures c.name == p.name && c.summary == p.aiSummary
    ensures c.skills == Truncate(p.skills, 4)
  {
    ProjectCard(p.name, p.aiSummary, Truncate(p.skills, 4))
  }

  /** The full-report panel for a report. */
  function RenderReport(r: FullReport): (v: ReportView)
    ensures v.icon == Utils.GetArchetypeIcon(r.developerArchetype) && v.archetype == r.developerArchetype
    ensures v.skillCount == |r.skillConstellation| && v.skills == FormatAll(r.skillConstellation)
    ensures v.flagship.Some? <==> |r.flagshipProjects| > 0
    ensures v.flagship.Some? ==> |v.flagship.value| == |r.flagshipProjects|
    ensures v.flagship.Some? ==>
      forall i | 0 <= i < |r.flagshipProjects| :: v.flagship.value[i] == FlagshipCard(r.flagshipProjects[i])
    ensures v.quality.Some? <==> r.aiCodeQualitySummary != ""
    ensures v.quality.Some? ==> v.quality.value == r.aiCodeQualitySummary
    ensures v.paths.Some? <==> |r.suggestedPaths| > 0
    ensures v.paths.Some? ==> |v.paths.value| == |r.suggestedPaths|
    ensures v.paths.Some? ==> forall i | 0 <= i < |r.suggestedPaths| ::
      && v.paths.value[i].name == r.suggestedPaths[i].pathName
      && v.paths.value[i].description == r.suggestedPaths[i].description
      && v.paths.value[i].skills == FormatAll(r.suggestedPaths[i].skillsToDevelop)
    ensures v.ideas.Some? <==> |r.suggestedProjects| > 0
    ensures v.ideas.Some? ==> v.ideas.value == r.suggestedProjects
  {
    var fs := r.flagshipProjects;
    var ps := r.suggestedPaths;
    ReportView(
      Utils.GetArchetypeIcon(r.developerArchetype),
      r.developerArchetype,
      |r.skillConstellation|,
      FormatAll(r.skillConstellation),
      if |fs| > 0 then Some(seq(|fs|, i requires 0 <= i < |fs| => FlagshipCard(fs[i]))) else None,
      if r.aiCodeQualitySummary != "" then Some(r.aiCodeQualitySummary) else None,
      if |ps| > 0 then Some(seq(|ps|, i requires 0 <= i < |ps| =>
        PathCard(ps[i].pathName, ps[i].description, FormatAll(ps[i].skillsToDevelop)))) else None,
      if |r.suggestedProjects| > 0 then Some(r.suggestedProjects) else None)
  }

  /**
   * The panel: loading while analysing, whatever else holds; else a
   * non-empty error; else the empty state without a report; else the report.
   */
  function SelectPanel(isAnalyzing: bool, analysisError: Option<string>, report: Option<FullReport>): (p: Panel)
    ensures p.Loading? <==> isAnalyzing
    ensures p.ErrorPanel? <==> !isAnalyzing && TruthyString(analysisError)
    ensures p.ErrorPanel? ==> p.message == analysisError.value
    ensures p.EmptyState? <==> !isAnalyzing && !TruthyString(analysisError) && report.None?
    ensures p.ReportPanel? ==> report.Some? && p.view == RenderReport(report.value)
  {
    if isAnalyzing then Loading
    else if TruthyString(analysisError) then ErrorPanel(analysisError.value)
    else if report.None? then EmptyState
    else ReportPanel(RenderReport(report.value))
  }

  /** An error shown over a report hides the report; once the error is cleared the report is back. */
  lemma ErrorHidesReport(report: FullReport, message: string)
    requires message != ""
    ensures SelectPanel(false, Some(message), Some(report)) == ErrorPanel(message)
    ensures SelectPanel(false, None, Some(report)) == ReportPanel(RenderReport(report))
  {
  }
}

=== FILE: api.dfy ===
/**
 * The API client: how a request is composed from a path and the caller's
 * options, and how a settled `fetch` becomes a value or an `Error`. The
 * network itself is an input (`Transport`).
 */
module ApiClient {
  import opened Wrappers
  import opened Outcomes
  import opened Decimal
  import opened ApiTypes

  /** The backend address used when the environment does not configure one. */
  const DefaultApiBase: string := "http://localhost:8000"

  /** `process.env.NEXT_PUBLIC_API_BASE || "http://localhost:8000"` */
  function ApiBase(env: Option<string>): (base: string)
    ensures TruthyString(env) ==> base == env.value
    ensures !TruthyString(env) ==> base == DefaultApiBase
  {
    if TruthyString(env) then env.value else DefaultApiBase
  }

  /** A header object: names to values. */
  type Headers = map<string, string>

  const ContentTypeJson: Headers := map["Content-Type" := "application/json"]

  /** The subset of `RequestInit` the client's callers pass. `None` is an absent property. */
  datatype RequestInit = RequestInit(verb: Option<string>, headers: Option<Headers>, body: Option<Json>)

  /** What is handed to `fetch`. `method` is `None` when the init object has none (fetch then uses GET). */
  datatype Request = Request(url: string, credentials: string, verb: Option<string>, headers: Headers, body: Option<Json>)

  /**
   * `{ credentials: "omit", headers: { "Content-Type": ..., ...(options?.headers || {}) }, ...options }`.
   * The header merge is a map union in which the caller's entries win; the
   * final `...options` then replaces the merged object by the caller's own
   * whenever the caller supplied one.
   */
  function BuildRequest(base: string, path: string, options: Option<RequestInit>): (r: Request)
    ensures r.url == base + path
    ensures r.credentials == "omit"
    ensures options.None? ==> r.verb.None? && r.body.None? && r.headers == ContentTypeJson
    ensures options.Some? ==> r.verb == options.value.verb && r.body == options.value.body
    ensures options.Some? && options.value.headers.Some? ==> r.headers == options.value.headers.value
    ensures "Content-Type" in r.headers <==>
      (options.None? || options.value.headers.None? || "Content-Type" in options.value.headers.value)
  {
    var supplied: Headers := if options.Some? && options.value.headers.Some? then options.value.headers.value else map[];
    var merged := ContentTypeJson + supplied;
    var base0 := Request(base + path, "omit", None, merged, None);
    match options
    case None => base0
    case Some(init) =>
      base0.(verb := init.verb,
             headers := if init.headers.Some? then init.headers.value else base0.headers,
             body := init.body)
  }

  // ---------------------------------------------------------------- responses

  /** A JSON property value reduced to what `a || b` looks at: falsy, or truthy with its string form. */
  datatype Field = Falsy | Truthy(text: string)

  /** What `JSON.parse` made of an error body. */
  datatype ErrorBody =
    | NotJson                                   // JSON.parse threw
    | JsonNull                                  // parsed to null: reading `.detail` throws
    | JsonOther                                 // number, string, boolean or array: no fields
    | JsonObject(detail: Field, message: Field)

  /** What `res.json()` made of a success body. */
  datatype SuccessBody<+T> = Parsed(value: T) | Unparsable(syntaxError: string)

  datatype Response<+T> = Response(
    status: nat,
    statusText: string,
    bodyText: string,
    errorBody: ErrorBody,
    successBody: SuccessBody<T>)

  /** A settled `fetch`: a response, or a rejection (a network failure). */
  datatype Transport<+T> = Responded(response: Response<T>) | Rejected(thrown: Thrown)

  /** `res.ok`: the status is in the range 200-299. */
  predicate IsOk(status: nat)
  {
    200 <= status <= 299
  }

  /** `API Error ${res.status}: ${res.statusText}` */
  function DefaultMessage(status: nat, statusText: string): string
  {
    "API Error " + NatToString(status) + ": " + statusText
  }

  /** The message of the `Error` thrown for a non-OK response. */
  function ErrorMessage(status: nat, statusText: string, bodyText: string, body: ErrorBody): (m: string)
    ensures || m == DefaultMessage(status, statusText)
            || (body.JsonObject? && body.detail.Truthy? && m == body.detail.text)
            || (body.JsonObject? && body.message.Truthy? && m == body.message.text)
            || ((body.NotJson? || body.JsonNull?) && bodyText != "" && m == bodyText)
  {
    var fallback := DefaultMessage(status, statusText);
    match body
    case JsonObject(detail, message) =>
      if detail.Truthy? then detail.text else if message.Truthy? then message.text else fallback
    case JsonOther => fallback
    case _ => if bodyText != "" then bodyText else fallback
  }

  const UnknownError: string := "Unknown error occurred"

  /**
   * `ApiClient.fetch`: an OK response yields its parsed body; a non-OK
   * response, a body that fails to parse and a network failure all become an
   * `Error`. Errors are rethrown unchanged and anything else thrown becomes
   * "Unknown error occurred", so no non-`Error` value ever escapes.
   */
  function Fetch<T>(t: Transport<T>): (r: Outcome<T>)
    ensures r.Err? ==> r.thrown.ErrorValue?
    ensures r.Ok? <==> t.Responded? && IsOk(t.response.status) && t.response.successBody.Parsed?
    ensures r.Ok? ==> r.value == t.response.successBody.value
    ensures t.Responded? && !IsOk(t.response.status) ==>
      r == Err(ErrorValue(ErrorMessage(t.response.status, t.response.statusText, t.response.bodyText, t.response.errorBody)))
    ensures t.Responded? && IsOk(t.response.status) && t.response.successBody.Unparsable? ==>
      r == Err(ErrorValue(t.response.successBody.syntaxError))
    ensures t.Rejected? ==> r == Err(ErrorValue(MessageOr(t.thrown, UnknownError)))
  {
    match t
    case Rejected(e) => Err(ErrorValue(MessageOr(e, UnknownError)))
    case Responded(res) =>
      if !IsOk(res.status) then
        Err(ErrorValue(ErrorMessage(res.status, res.statusText, res.bodyText, res.errorBody)))
      else
        match res.successBody
        case Parsed(v) => Ok(v)
        case Unparsable(e) => Err(ErrorValue(e))
  }

  /**
   * The error message is, in order, the first truthy of `detail` and
   * `message` when the body is a JSON object; the raw body text when the body
   * is not JSON or is `null`, unless that text is empty; and otherwise the
   * default message. No status gets a message of its own.
   */
  lemma ErrorMessageCases(status: nat, statusText: string, bodyText: string, body: ErrorBody)
    ensures var m := ErrorMessage(status, statusText, bodyText, body);
      && (body.JsonObject? && body.detail.Truthy? ==> m == body.detail.text)
      && (body.JsonObject? && body.detail.Falsy? && body.message.Truthy? ==> m == body.message.text)
      && (body.JsonObject? && body.detail.Falsy? && body.message.Falsy? ==> m == DefaultMessage(status, statusText))
      && (body.JsonOther? ==> m == DefaultMessage(status, statusText))
      && ((body.NotJson? || body.JsonNull?) && bodyText != "" ==> m == bodyText)
      && ((body.NotJson? || body.JsonNull?) && bodyText == "" ==> m == DefaultMessage(status, statusText))
  {
  }

  /** A literal `null` error body is reported as its own text, "null". */
  lemma NullBodyReportsItsText(status: nat, statusText: string)
    ensures ErrorMessage(status, statusText, "null", JsonNull) == "null"
  {
  }

  /** Two non-OK responses with the same body get different messages only through the default message. */
  lemma ErrorMessageIgnoresStatus(s1: nat, t1: string, s2: nat, t2: string, bodyText: string, body: ErrorBody)
    ensures ErrorMessage(s1, t1, bodyText, body) != ErrorMessage(s2, t2, bodyText, body) ==>
      ErrorMessage(s1, t1, bodyText, body) == DefaultMessage(s1, t1) &&
      ErrorMessage(s2, t2, bodyText, body) == DefaultMessage(s2, t2)
  {
  }

  lemma DigitsThenColon(d1: string, r1: string, d2: string, r2: string)
    requires AllDigits(d1) && AllDigits(d2)
    requires |r1| > 0 && r1[0] == ':' && |r2| > 0 && r2[0] == ':'
    requires d1 + r1 == d2 + r2
    ensures d1 == d2 && r1 == r2
  {
    assert d1 == (d1 + r1)[..|d1|];
    assert d2 == (d2 + r2)[..|d2|];
    assert r1 == (d1 + r1)[|d1|..];
    assert r2 == (d2 + r2)[|d2|..];
  }

  /** The default message names the status and status text unambiguously. */
  lemma DefaultMessageInjective(s1: nat, t1: string, s2: nat, t2: string)
    requires DefaultMessage(s1, t1) == DefaultMessage(s2, t2)
    ensures s1 == s2 && t1 == t2
  {
    var p := "API Error ";
    var d1, d2 := NatToString(s1), NatToString(s2);
    var r1, r2 := ": " + t1, ": " + t2;
    assert DefaultMessage(s1, t1) == p + (d1 + r1);
    assert DefaultMessage(s2, t2) == p + (d2 + r2);
    assert d1 + r1 == (p + (d1 + r1))[|p|..];
    assert d2 + r2 == (p + (d2 + r2))[|p|..];
    DigitsThenColon(d1, r1, d2, r2);
    NatToStringInjective(s1, s2);
    assert t1 == r1[2..] && t2 == r2[2..];
  }

  // ---------------------------------------------------------------- endpoints

  const BearerPrefix: string := "Bearer "

  /** `Bearer ${token}` (the credentials form of section 2.1 of RFC 6750). No shape check is made on the token. */
  function BearerCredential(token: string): string
  {
    BearerPrefix + token
  }

  /** Reads a token back from an `Authorization` value of the bearer form. */
  function ParseBearer(value: string): Option<string>
  {
    if |value| >= |BearerPrefix| && value[..|BearerPrefix|] == BearerPrefix then Some(value[|BearerPrefix|..])
    else None
  }

  lemma ParseBearerCredential(token: string)
    ensures ParseBearer(BearerCredential(token)) == Some(token)
  {
    var v := BearerCredential(token);
    assert v[..|BearerPrefix|] == BearerPrefix;
    assert v[|BearerPrefix|..] == token;
  }

  /** `healthCheck`: GET `/` with the default options. */
  function HealthCheckCall(base: string): (r: Request)
    ensures r.url == base + "/" && r.verb.None? && r.headers == ContentTypeJson && r.body.None?
  {
    BuildRequest(base, "/", None)
  }

  /**
   * `fullAnalysis(token)`: POST `/full-analysis` whose only header is the
   * bearer credential; because the caller supplies headers, Content-Type is
   * not sent.
   */
  function FullAnalysisCall(base: string, token: string): (r: Request)
    ensures r.url == base + "/full-analysis"
    ensures r.verb == Some("POST") && r.body.None?
    ensures r.headers.Keys == {"Authorization"}
    ensures ParseBearer(r.headers["Authorization"]) == Some(token)
  {
    ParseBearerCredential(token);
    BuildRequest(base, "/full-analysis", Some(RequestInit(Some("POST"), Some(map["Authorization" := BearerCredential(token)]), None)))
  }

  function StringsJson(xs: seq<string>): Json
  {
    JArray(seq(|xs|, i requires 0 <= i < |xs| => JString(xs[i])))
  }

  function DecodeStrings(items: seq<Json>): Option<seq<string>>
    decreases |items|
  {
    if |items| == 0 then Some([])
    else match (items[0], DecodeStrings(items[1..]))
      case (JString(s), Some(rest)) => Some([s] + rest)
      case _ => None
  }

  lemma {:induction false} DecodeStringsJson(xs: seq<string>)
    ensures DecodeStrings(StringsJson(xs).items) == Some(xs)
    decreases |xs|
  {
    if |xs| > 0 {
      DecodeStringsJson(xs[1..]);
      assert StringsJson(xs).items[1..] == StringsJson(xs[1..]).items;
      assert xs == [xs[0]] + xs[1..];
    }
  }

  /** The value of the first member named `key`. */
  function Member(members: seq<(string, Json)>, key: string): Option<Json>
    decreases |members|
  {
    if |members| == 0 then None
    else if members[0].0 == key then Some(members[0].1)
    else Member(members[1..], key)
  }

  /** `JSON.stringify(request)` as a value: the members in declaration order. */
  function CareerTrackRequestJson(req: CareerTrackRequest): Json
  {
    JObject([("current_skills", StringsJson(req.currentSkills)), ("target_domain", JString(req.targetDomain))])
  }

  function MarketMatchRequestJson(req: MarketMatchRequest): Json
  {
    JObject([("user_skills", StringsJson(req.userSkills)), ("job_title", JString(req.jobTitle))])
  }

  /** How the backend reads a career-track body. */
  function DecodeCareerTrackRequest(j: Json): Option<CareerTrackRequest>
  {
    if !j.JObject? then None
    else match (Member(j.members, "current_skills"), Member(j.members, "target_domain"))
      case (Some(JArray(items)), Some(JString(t))) =>
        (match DecodeStrings(items)
         case Some(skills) => Some(CareerTrackRequest(skills, t))
         case None => None)
      case _ => None
  }

  /** How the backend reads a market-match body. */
  function DecodeMarketMatchRequest(j: Json): Option<MarketMatchRequest>
  {
    if !j.JObject? then None
    else match (Member(j.members, "user_skills"), Member(j.members, "job_title"))
      case (Some(JArray(items)), Some(JString(t))) =>
        (match DecodeStrings(items)
         case Some(skills) => Some(MarketMatchRequest(skills, t))
         case None => None)
      case _ => None
  }

  lemma DecodeCareerTrackRequestJson(req: CareerTrackRequest)
    ensures DecodeCareerTrackRequest(CareerTrackRequestJson(req)) == Some(req)
  {
    var ms := CareerTrackRequestJson(req).members;
    assert Member(ms, "current_skills") == Some(StringsJson(req.currentSkills));
    assert ms[1..] == [("target_domain", JString(req.targetDomain))];
    assert Member(ms, "target_domain") == Some(JString(req.targetDomain));
    DecodeStringsJson(req.currentSkills);
  }

  lemma DecodeMarketMatchRequestJson(req: MarketMatchRequest)
    ensures DecodeMarketMatchRequest(MarketMatchRequestJson(req)) == Some(req)
  {
    var ms := MarketMatchRequestJson(req).members;
    assert Member(ms, "user_skills") == Some(StringsJson(req.userSkills));
    assert ms[1..] == [("job_title", JString(req.jobTitle))];
    assert Member(ms, "job_title") == Some(JString(req.jobTitle));
    DecodeStringsJson(req.userSkills);
  }

  /**
   * `generateTrack(request)`: POST `/generate-track` with the serialised
   * request, from which the request is recovered exactly, and the default
   * JSON content type.
   */
  function GenerateTrackCall(base: string, req: CareerTrackRequest): (r: Request)
    ensures r.url == base + "/generate-track"
    ensures r.verb == Some("POST") && r.headers == ContentTypeJson
    ensures r.body.Some? && DecodeCareerTrackRequest(r.body.value) == Some(req)
  {
    DecodeCareerTrackRequestJson(req);
    BuildRequest(base, "/generate-track", Some(RequestInit(Some("POST"), None, Some(CareerTrackRequestJson(req)))))
  }

  /** `marketMatch(request)`: POST `/market-match` with the serialised request. */
  function MarketMatchCall(base: string, req: MarketMatchRequest): (r: Request)
    ensures r.url == base + "/market-match"
    ensures r.verb == Some("POST") && r.headers == ContentTypeJson
    ensures r.body.Some? && DecodeMarketMatchRequest(r.body.value) == Some(req)
  {
    DecodeMarketMatchRequestJson(req);
    BuildRequest(base, "/market-match", Some(RequestInit(Some("POST"), None, Some(MarketMatchRequestJson(req)))))
  }
}

=== FILE: api_types.dfy ===
/**
 * The records exchanged with the analysis backend. Field names follow the
 * wire format in lower camel case (`skill_constellation` is
 * `skillConstellation`).
 */
module ApiTypes {
  import Wrappers

  datatype RepoReport = RepoReport(name: string, skills: seq<string>, aiSummary: string)

  datatype GeneratedProject = GeneratedProject(
    title: string,
    description: string,
    features: seq<string>,
    suggestedStack: seq<string>)

  datatype SuggestedPath = SuggestedPath(pathName: string, description: string, skillsToDevelop: seq<string>)

  /** The full analysis result of one GitHub profile. */
  datatype FullReport = FullReport(
    skillConstellation: seq<string>,
    developerArchetype: string,
    projectHubs: seq<RepoReport>,
    flagshipProjects: seq<RepoReport>,
    aiCodeQualitySummary: string,
    suggestedPaths: seq<SuggestedPath>,
    suggestedProjects: seq<GeneratedProject>)

  /** `fullReport?.skill_constellation || []` */
  function SkillsOf(report: Wrappers.Option<FullReport>): (skills: seq<string>)
    ensures report.Some? ==> skills == report.value.skillConstellation
    ensures report.None? ==> skills == []
  {
    if report.Some? then report.value.skillConstellation else []
  }

  datatype CareerTrackRequest = CareerTrackRequest(currentSkills: seq<string>, targetDomain: string)

  datatype LearningStep = LearningStep(title: string, description: string)

  datatype CareerTrack = CareerTrack(
    targetDomain: string,
    learningStep: LearningStep,
    bridgeProject: GeneratedProject,
    capstoneProject: GeneratedProject)

  datatype MarketMatchRequest = MarketMatchRequest(userSkills: seq<string>, jobTitle: string)

  datatype GapAnalysis = GapAnalysis(matchingSkills: seq<string>, missingSkills: seq<string>, summaryParagraph: string)

  /** One entry of the server-side report history: its id and creation timestamp (an opaque string). */
  datatype ReportHistoryItem = ReportHistoryItem(id: int, createdAt: string)

  /** A JSON value, as far as the request bodies need one. Object members keep their order. */
  datatype Json = JString(s: string) | JArray(items: seq<Json>) | JObject(members: seq<(string, Json)>)
}

=== FILE: auth_page.dfy ===
/**
 * The authentication page: the OAuth authorization-code callback, the
 * redirect to GitHub, and manual token entry. `fetch`, the router, the
 * redirect and the one-second timer are inputs or recorded intentions.
 */
module AuthPage {
  import opened Wrappers
  import opened Outcomes
  import opened Decimal
  import opened JsStrings
  import opened AuthStore
  import opened ApiClient

  /** A navigation scheduled with `setTimeout`. */
  datatype Navigation = Navigation(route: string, delayMs: nat)

  const ToDashboard: Navigation := Navigation("/dashboard", 1000)

  /** Page-local state, plus the navigation and the full-page redirect the page has asked for. */
  datatype AuthView = AuthView(
    input: string,
    isLoading: bool,
    showManualInput: bool,
    scheduled: Option<Navigation>,
    redirect: Option<string>)

  datatype AuthSession = AuthSession(view: AuthView, store: TokenStore)

  /** The token input's `onChange`. */
  function EditToken(s: AuthSession, text: string): (r: AuthSession)
    ensures r.view.input == text && r.store == s.store
    ensures r.view.(input := s.view.input) == s.view
  {
    s.(view := s.view.(input := text))
  }

  /** "Use Personal Access Token" (true) and "Back to OAuth" (false). */
  function SetManualInput(s: AuthSession, on: bool): (r: AuthSession)
    ensures r.view.showManualInput == on && r.store == s.store
    ensures r.view.(showManualInput := s.view.showManualInput) == s.view
  {
    s.(view := s.view.(showManualInput := on))
  }

  /**
   * `handleSubmit`: a blank token (empty or only whitespace) is rejected
   * with nothing changed; any other token is stored exactly as typed,
   * untrimmed, and the dashboard navigation is scheduled.
   */
  function HandleSubmit(s: AuthSession): (r: AuthSession)
    ensures Blank(s.view.input) ==> r == s
    ensures !Blank(s.view.input) ==>
      && r.store.githubToken == Some(s.view.input)
      && r.view == s.view.(isLoading := false, scheduled := Some(ToDashboard))
  {
    TrimEmptyIffBlank(s.view.input);
    if Trim(s.view.input) == "" then s
    else AuthSession(s.view.(isLoading := false, scheduled := Some(ToDashboard)),
                     SetGithubToken(s.store, Some(s.view.input)))
  }

  // ---------------------------------------------------------------- OAuth callback

  /** What `response.json().catch(() => ({}))` made of an error body. */
  datatype CallbackErrorBody =
    | ErrUnparsable                       // replaced by {}
    | ErrNull                             // null: reading `.detail` throws
    | ErrOther                            // a JSON value without fields
    | ErrObject(detail: Field)

  /** What `response.json()` made of a success body. */
  datatype TokenBody =
    | TokenUnparsable(syntaxError: string)
    | TokenNull
    | TokenOther
    | TokenObject(accessToken: Field)

  datatype CallbackResponse = CallbackResponse(
    status: nat,
    statusText: string,
    errorBody: CallbackErrorBody,
    tokenBody: TokenBody)

  datatype CallbackTransport = Answered(response: CallbackResponse) | NetworkFailed(thrown: Thrown)

  /** The TypeError message for reading a property of null (V8's wording). */
  function NullReadMessage(property: string): string
  {
    "Cannot read properties of null (reading '" + property + "')"
  }

  /** `HTTP ${response.status}: ${response.statusText}` */
  function HttpMessage(status: nat, statusText: string): string
  {
    "HTTP " + NatToString(status) + ": " + statusText
  }

  const NoAccessToken: string := "No access token received"

  /**
   * The code exchange: the access token on success, else the message of what
   * was thrown. A non-OK response reports the body's `detail` when truthy,
   * else the status line, an unparseable body counting as `{}`. A missing or
   * falsy `access_token` is an error.
   */
  function Exchange(t: CallbackTransport): (r: Result<string, string>)
    ensures t.Answered? && !IsOk(t.response.status) ==> r.Failure?
    ensures (t.Answered? && !IsOk(t.response.status) && t.response.errorBody.ErrObject? &&
             t.response.errorBody.detail.Truthy?) ==> r == Failure(t.response.errorBody.detail.text)
    ensures t.Answered? && !IsOk(t.response.status) &&
              (t.response.errorBody.ErrUnparsable? || t.response.errorBody.ErrOther? ||
               (t.response.errorBody.ErrObject? && t.response.errorBody.detail.Falsy?)) ==>
              r == Failure(HttpMessage(t.response.status, t.response.statusText))
    ensures r.Success? <==>
      t.Answered? && IsOk(t.response.status) &&
      t.response.tokenBody.TokenObject? && t.response.tokenBody.accessToken.Truthy?
    ensures r.Success? ==> r.value == t.response.tokenBody.accessToken.text
    ensures t.Answered? && IsOk(t.response.status) &&
              (t.response.tokenBody.TokenOther? ||
               (t.response.tokenBody.TokenObject? && t.response.tokenBody.accessToken.Falsy?)) ==>
              r == Failure(NoAccessToken)
    ensures t.Answered? && !IsOk(t.response.status) && t.response.errorBody.ErrNull? ==>
      r == Failure(NullReadMessage("detail"))
    ensures t.Answered? && IsOk(t.response.status) && t.response.tokenBody.TokenNull? ==>
      r == Failure(NullReadMessage("access_token"))
    ensures t.Answered? && IsOk(t.response.status) && t.response.tokenBody.TokenUnparsable? ==>
      r == Failure(t.response.tokenBody.syntaxError)
    ensures t.NetworkFailed? ==> r == Failure(MessageOr(t.thrown, "Unknown error"))
  {
    match t
    case NetworkFailed(e) => Failure(MessageOr(e, "Unknown error"))
    case Answered(res) =>
      if !IsOk(res.status) then
        match res.errorBody
        case ErrNull => Failure(NullReadMessage("detail"))
        case ErrObject(Truthy(d)) => Failure(d)
        case _ => Failure(HttpMessage(res.status, res.statusText))
      else
        match res.tokenBody
        case TokenUnparsable(e) => Failure(e)
        case TokenNull => Failure(NullReadMessage("access_token"))
        case TokenObject(Truthy(tok)) => Success(tok)
        case _ => Failure(NoAccessToken)
  }

  /**
   * `handleOAuthCallback`: a successful exchange stores the access token and
   * schedules the dashboard; any failure stores nothing and switches to
   * manual entry. Loading is off afterwards either way.
   */
  function HandleOAuthCallback(s: AuthSession, t: CallbackTransport): (r: AuthSession)
    ensures !r.view.isLoading
    ensures Exchange(t).Success? ==>
      r.store.githubToken == Some(Exchange(t).value) && r.view.scheduled == Some(ToDashboard) &&
      r.view.showManualInput == s.view.showManualInput
    ensures Exchange(t).Failure? ==>
      r.store == s.store && r.view.showManualInput && r.view.scheduled == s.view.scheduled
    ensures r.view.input == s.view.input && r.view.redirect == s.view.redirect
  {
    match Exchange(t)
    case Success(tok) =>
      AuthSession(s.view.(isLoading := false, scheduled := Some(ToDashboard)),
                  SetGithubToken(s.store, Some(tok)))
    case Failure(_) =>
      s.(view := s.view.(isLoading := false, showManualInput := true))
  }

  const CallbackPath: string := "/auth/github/callback?code="

  /** `${NEXT_PUBLIC_API_BASE}/auth/github/callback?code=${code}`: no default base, no encoding. */
  function CallbackUrl(apiBaseEnv: Option<string>, code: string): (url: string)
    ensures var prefix := (if apiBaseEnv.Some? then apiBaseEnv.value else "undefined") + CallbackPath;
      |url| == |prefix| + |code| && url[..|prefix|] == prefix && url[|prefix|..] == code
  {
    (if apiBaseEnv.Some? then apiBaseEnv.value else "undefined") + CallbackPath + code
  }

  /** The page's mount effect and the callback URL it fetched, if any. */
  datatype MountStep = MountStep(session: AuthSession, fetched: Option<string>)

  /**
   * On mount the exchange runs only when the query carries a non-empty
   * `code` parameter (the authorization response of section 4.1.2 of
   * RFC 6749); otherwise nothing happens and nothing is fetched.
   */
  function OnMount(s: AuthSession, code: Option<string>, apiBaseEnv: Option<string>, t: CallbackTransport): (r: MountStep)
    ensures r.fetched.Some? <==> TruthyString(code)
    ensures TruthyString(code) ==>
      r.fetched == Some(CallbackUrl(apiBaseEnv, code.value)) && r.session == HandleOAuthCallback(s, t)
    ensures !TruthyString(code) ==> r.session == s
  {
    if TruthyString(code) then MountStep(HandleOAuthCallback(s, t), Some(CallbackUrl(apiBaseEnv, code.value)))
    else MountStep(s, None)
  }

  // ---------------------------------------------------------------- GitHub login

  const ClientIdPlaceholder: string := "YOUR_GITHUB_CLIENT_ID"

  /** `process.env.NEXT_PUBLIC_GITHUB_CLIENT_ID || "YOUR_GITHUB_CLIENT_ID"` */
  function ClientId(env: Option<string>): string
  {
    if TruthyString(env) then env.value else ClientIdPlaceholder
  }

  const AuthorizeEndpoint: string := "https://github.com/login/oauth/authorize?client_id="

  /**
   * The authorize URL: the client id as the first query value, then this
   * origin's `/auth` as the redirect URI and the `repo user` scope, none of
   * it encoded.
   */
  function AuthorizeUrl(clientId: string, origin: string): (url: string)
    ensures |url| >= |AuthorizeEndpoint| + |clientId| && url[..|AuthorizeEndpoint|] == AuthorizeEndpoint
    ensures url[|AuthorizeEndpoint|..|AuthorizeEndpoint| + |clientId|] == clientId
    ensures url[|AuthorizeEndpoint| + |clientId|..] == "&redirect_uri=" + origin + "/auth&scope=repo user"
  {
    AuthorizeEndpoint + clientId + "&redirect_uri=" + origin + "/auth&scope=repo user"
  }

  /** The client id is configured: set and not the placeholder. */
  predicate ClientIdConfigured(env: Option<string>)
  {
    TruthyString(env) && env.value != ClientIdPlaceholder
  }

  /**
   * `handleGitHubLogin`: without a configured client id the page falls back
   * to manual entry and does not redirect; with one it redirects to GitHub's
   * authorize endpoint, coming back to `/auth` on this origin.
   */
  function HandleGitHubLogin(s: AuthSession, clientIdEnv: Option<string>, origin: string): (r: AuthSession)
    ensures r.store == s.store
    ensures !ClientIdConfigured(clientIdEnv) ==> r.view == s.view.(showManualInput := true)
    ensures ClientIdConfigured(clientIdEnv) ==>
      r.view == s.view.(redirect := Some(AuthorizeUrl(clientIdEnv.value, origin)))
  {
    var id := ClientId(clientIdEnv);
    if id == ClientIdPlaceholder then s.(view := s.view.(showManualInput := true))
    else s.(view := s.view.(redirect := Some(AuthorizeUrl(id, origin))))
  }

  /**
   * Both ways in end alike: a manual token and an OAuth callback carrying the
   * same token leave the same token stored and the same navigation
   * scheduled, and only the OAuth path fetches anything.
   */
  lemma ManualAndOAuthAgree(s: AuthSession, token: string, code: string, apiBaseEnv: Option<string>)
    requires !Blank(token) && code != ""
    ensures var manual := HandleSubmit(EditToken(s, token));
      var oauth := OnMount(s, Some(code), apiBaseEnv,
        Answered(CallbackResponse(200, "OK", ErrUnparsable, TokenObject(Truthy(token)))));
      && manual.store == oauth.session.store
      && manual.view.scheduled == oauth.session.view.scheduled == Some(ToDashboard)
      && oauth.fetched.Some?
  {
    assert token != "";
  }

  /**
   * A configured login redirects to a URL whose `client_id` query value,
   * read up to the next `&`, is the configured id (for an id without `&`,
   * which the page does not encode); the store and the manual toggle are
   * left alone.
   */
  lemma LoginRedirectCarriesClientId(s: AuthSession, clientIdEnv: Option<string>, origin: string)
    requires ClientIdConfigured(clientIdEnv) && '&' !in clientIdEnv.value
    ensures var r := HandleGitHubLogin(s, clientIdEnv, origin);
      && r.view.redirect.Some?
      && r.view.showManualInput == s.view.showManualInput
      && r.store == s.store
      && r.view.redirect.value[..|AuthorizeEndpoint|] == AuthorizeEndpoint
      && FirstSegment(r.view.redirect.value[|AuthorizeEndpoint|..], '&') == clientIdEnv.value
  {
    var id := clientIdEnv.value;
    var url := AuthorizeUrl(id, origin);
    var rest := "redirect_uri=" + origin + "/auth&scope=repo user";
    assert url[|AuthorizeEndpoint|..] == id + ['&'] + rest;
    FirstSegmentOf(id, '&', rest);
  }
}

=== FILE: auth_store.dfy ===
/**
 * The persisted token cell. Persistence to local storage under the key
 * "devpath-auth" is not modelled; the cell is a plain value.
 */
module AuthStore {
  import opened Wrappers

  datatype TokenStore = TokenStore(githubToken: Option<string>)

  /** The store as created: no token. */
  function InitialStore(): (s: TokenStore)
    ensures s.githubToken.None?
  {
    TokenStore(None)
  }

  /** `setGithubToken(token)`: stores exactly `token`, unvalidated (the empty string and null included). */
  function SetGithubToken(s: TokenStore, token: Option<string>): (r: TokenStore)
    ensures r.githubToken == token
  {
    s.(githubToken := token)
  }

  /** `clearToken()` */
  function ClearToken(s: TokenStore): (r: TokenStore)
    ensures r.githubToken.None?
  {
    s.(githubToken := None)
  }

  /**
   * Clearing is idempotent, storing null is clearing, and a later store
   * overwrites any earlier one, so only the last write is observable.
   */
  lemma TokenStoreLaws(s: TokenStore, a: Option<string>, b: Option<string>)
    ensures ClearToken(ClearToken(s)) == ClearToken(s)
    ensures SetGithubToken(s, None) == ClearToken(s)
    ensures SetGithubToken(SetGithubToken(s, a), b) == SetGithubToken(s, b)
    ensures ClearToken(SetGithubToken(s, a)) == ClearToken(s)
  {
  }
}

=== FILE: career_track.dfy ===
/**
 * The career-track requester: its guards, the request it sends, and the
 * result/error state it keeps. The report comes from the dashboard.
 */
module CareerTrackSection {
  import opened Wrappers
  import opened Outcomes
  import opened JsStrings
  import opened ApiTypes
  import opened ApiClient
  import opened SkillChips

  datatype CareerState = CareerState(
    track: Option<CareerTrack>,
    isGenerating: bool,
    targetDomain: string,
    error: Option<string>)

  /** A local validation failure: nothing is sent. */
  datatype Rejection = NoTarget | NoSkills

  /** One press of the generate button: the new state, and the request sent if one was. */
  datatype CareerStep = CareerStep(state: CareerState, sent: Option<Request>, rejected: Option<Rejection>)

    /** The target input's `onChange`. */
  function SetTargetDomain(s: CareerState, text: string): (r: CareerState)
    ensures r == s.(targetDomain := text)
  {
    s.(targetDomain := text)
  }

  const TrackFallback: string := "Failed to generate career track"

  /**
   * `handleGenerateTrack`. A blank target is rejected first, then a missing
   * report or empty skill list; a rejection changes nothing and sends
   * nothing. Otherwise the request carries the full skill list and the
   * target exactly as typed; success stores the track and clears the error,
   * failure stores the message and keeps the previous track.
   */
  function HandleGenerateTrack(s: CareerState, report: Option<FullReport>, apiBase: string, t: Transport<CareerTrack>): (r: CareerStep)
    ensures Blank(s.targetDomain) ==> r == CareerStep(s, None, Some(NoTarget))
    ensures !Blank(s.targetDomain) && |SkillsOf(report)| == 0 ==> r == CareerStep(s, None, Some(NoSkills))
    ensures r.sent.Some? <==> !Blank(s.targetDomain) && |SkillsOf(report)| > 0
    ensures r.sent.Some? ==>
      && r.rejected.None?
      && r.sent.value.url == apiBase + "/generate-track"
      && r.sent.value.verb == Some("POST") && r.sent.value.headers == ContentTypeJson
      && r.sent.value.body.Some?
      && DecodeCareerTrackRequest(r.sent.value.body.value) == Some(CareerTrackRequest(report.value.skillConstellation, s.targetDomain))
      && !r.state.isGenerating
      && r.state.targetDomain == s.targetDomain
      && (Fetch(t).Ok? ==> r.state.track == Some(Fetch(t).value) && r.state.error.None?)
      && (Fetch(t).Err? ==> r.state.track == s.track && r.state.error == Some(Fetch(t).thrown.message))
  {
    TrimEmptyIffBlank(s.targetDomain);
    var skills := SkillsOf(report);
    if Trim(s.targetDomain) == "" then CareerStep(s, None, Some(NoTarget))
    else if |skills| == 0 then CareerStep(s, None, Some(NoSkills))
    else
      var request := GenerateTrackCall(apiBase, CareerTrackRequest(skills, s.targetDomain));
      var s' := match Fetch(t)
        case Ok(track) => s.(track := Some(track), error := None, isGenerating := false)
        case Err(e) => s.(error := Some(MessageOr(e, TrackFallback)), isGenerating := false);
      CareerStep(s', Some(request), None)
  }

  /** The generate button is disabled while generating or when there is no report. */
  predicate GenerateDisabled(s: CareerState, report: Option<FullReport>)
  {
    s.isGenerating || report.None?
  }

  /** The "Your Current Skills" row: shown only with a report; ten chips, then "+N more". */
  function CurrentSkillsRow(report: Option<FullReport>): (r: Option<ChipRow>)
    ensures r.Some? <==> report.Some?
    ensures r.Some? ==> r.value == Truncate(report.value.skillConstellation, 10)
  {
    if report.Some? then Some(Truncate(report.value.skillConstellation, 10)) else None
  }

  /**
   * An enabled button with a non-blank target always sends, except for a
   * report without skills; repeating the press repeats the same request.
   */
  lemma EnabledPressSends(s: CareerState, report: Option<FullReport>, apiBase: string, t1: Transport<CareerTrack>, t2: Transport<CareerTrack>)
    requires !GenerateDisabled(s, report) && !Blank(s.targetDomain)
    requires |report.value.skillConstellation| > 0
    ensures HandleGenerateTrack(s, report, apiBase, t1).sent.Some?
    ensures HandleGenerateTrack(s, report, apiBase, t1).sent == HandleGenerateTrack(HandleGenerateTrack(s, report, apiBase, t1).state, report, apiBase, t2).sent
  {
    TrimEmptyIffBlank(s.targetDomain);
  }
}

=== FILE: dashboard.dfy ===
/**
 * The dashboard's report-session controller. Each handler is one atomic
 * step from the state as it was when the handler was invoked (its
 * snapshot): like the page's closures, a handler reads `fullReport` and
 * `githubUsername` from that snapshot even after its own writes. The
 * backend calls (`analyze`, `getReportHistory`, `getReport`, `deleteReport`)
 * are inputs: the outcome each would settle with.
 */
module Dashboard {
  import opened Wrappers
  import opened Outcomes
  import opened JsStrings
  import opened ApiTypes
  import AnalysisSection

  datatype Tab = AnalysisTab | CareerTab | MarketTab | HistoryTab

  /** The page state plus the session store fields it reads and the route it has asked for. */
  datatype DashboardState = DashboardState(
    token: Option<string>,
    username: Option<string>,
    report: Option<FullReport>,
    reportId: Option<int>,
    reportDate: Option<string>,
    history: seq<ReportHistoryItem>,
    isAnalyzing: bool,
    analysisError: Option<string>,
    isLoadingHistory: bool,
    activeTab: Tab,
    route: Option<string>)

  /** The backend calls a step made, in order. */
  datatype ApiCall = Analyze | GetReportHistory | GetReport(id: int) | DeleteReport(id: int)

  datatype Step = Step(state: DashboardState, calls: seq<ApiCall>)

  /** The page's first render: the stored token and username, no report, an empty history, the analysis tab. */
  function InitialState(token: Option<string>, username: Option<string>): (s: DashboardState)
    ensures Consistent(s) && s.token == token && s.username == username
    ensures s.report.None? && s.history == [] && !s.isAnalyzing && !s.isLoadingHistory
    ensures s.analysisError.None? && s.activeTab == AnalysisTab && s.route.None?
  {
    DashboardState(token, username, None, None, None, [], false, None, false, AnalysisTab, None)
  }

  /** A current report id or date never outlives the current report. */
  predicate Consistent(s: DashboardState)
  {
    (s.reportId.Some? ==> s.report.Some?) && (s.reportDate.Some? ==> s.report.Some?)
  }

  // ---------------------------------------------------------------- username

  /** A repository name that yields a username: it contains '/' and something precedes the first one. */
  predicate Candidate(repo: RepoReport)
  {
    '/' in repo.name && FirstSegment(repo.name, '/') != ""
  }

  /** The extraction loop: the owner part of the first candidate name; names such as "/x" are skipped. */
  function FirstOwner(repos: seq<RepoReport>): (r: Option<string>)
    ensures r.Some? <==> exists k | 0 <= k < |repos| :: Candidate(repos[k])
    ensures r.Some? ==> exists k | 0 <= k < |repos| ::
      && Candidate(repos[k])
      && r.value == FirstSegment(repos[k].name, '/')
      && forall j | 0 <= j < k :: !Candidate(repos[j])
    ensures r.Some? ==> r.value != "" && '/' !in r.value
    decreases |repos|
  {
    if |repos| == 0 then None
    else if Candidate(repos[0]) then Some(FirstSegment(repos[0].name, '/'))
    else
      var rest := FirstOwner(repos[1..]);
      assert forall k | 1 <= k < |repos| :: repos[k] == repos[1..][k - 1];
      assert rest.Some? ==> exists k | 0 <= k < |repos[1..]| :: Candidate(repos[1..][k]);
      rest
  }

  /** The fresh-analysis scan (hubs only), gated by the snapshot's username. */
  function AnalysisUsername(snapshotUser: Option<string>, report: FullReport): (r: Option<string>)
    ensures TruthyString(snapshotUser) ==> r == snapshotUser
    ensures !TruthyString(snapshotUser) && (exists k | 0 <= k < |report.projectHubs| :: Candidate(report.projectHubs[k])) ==>
      r == FirstOwner(report.projectHubs)
    ensures (forall k | 0 <= k < |report.projectHubs| :: !Candidate(report.projectHubs[k])) ==> r == snapshotUser
    ensures r == snapshotUser || (r.Some? && r.value != "" && '/' !in r.value)
  {
    if TruthyString(snapshotUser) then snapshotUser
    else match FirstOwner(report.projectHubs)
      case Some(u) => Some(u)
      case None => snapshotUser
  }

  /**
   * The history-path scans. Both are gated by the snapshot's username, so
   * the flagship scan also runs after a successful hub scan and, when it
   * finds a name, that name is the last one written.
   */
  function HistoryUsername(snapshotUser: Option<string>, current: Option<string>, report: FullReport): (r: Option<string>)
    ensures TruthyString(snapshotUser) ==> r == current
    ensures !TruthyString(snapshotUser) &&
            (exists k | 0 <= k < |report.flagshipProjects| :: Candidate(report.flagshipProjects[k])) ==>
      r == FirstOwner(report.flagshipProjects)
    ensures !TruthyString(snapshotUser) &&
            (forall k | 0 <= k < |report.flagshipProjects| :: !Candidate(report.flagshipProjects[k])) &&
            (exists k | 0 <= k < |report.projectHubs| :: Candidate(report.projectHubs[k])) ==>
      r == FirstOwner(report.projectHubs)
    ensures && (forall k | 0 <= k < |report.flagshipProjects| :: !Candidate(report.flagshipProjects[k]))
            && (forall k | 0 <= k < |report.projectHubs| :: !Candidate(report.projectHubs[k]))
            ==> r == current
    ensures r == current || (r.Some? && r.value != "" && '/' !in r.value)
  {
    if TruthyString(snapshotUser) then current
    else
      var fromHubs := FirstOwner(report.projectHubs);
      var fromFlagships := FirstOwner(report.flagshipProjects);
      if fromFlagships.Some? then fromFlagships
      else if fromHubs.Some? then fromHubs
      else current
  }

  // ---------------------------------------------------------------- history

  /**
   * `loadReportHistory` as called from a handler whose snapshot is
   * `snap`, writing into `cur`. The history is replaced wholesale; the
   * latest entry is fetched and made current only when the history is
   * non-empty and the snapshot had no report. Errors are swallowed, and
   * loading is off afterwards.
   */
  function LoadHistoryFrom(snap: DashboardState, cur: DashboardState,
                           historyOut: Outcome<seq<ReportHistoryItem>>, latestOut: Outcome<FullReport>): (r: Step)
    ensures !r.state.isLoadingHistory
    ensures historyOut.Err? ==> r == Step(cur.(isLoadingHistory := false), [GetReportHistory])
    ensures historyOut.Ok? ==> r.state.history == historyOut.value
    ensures var autoLoad := historyOut.Ok? && |historyOut.value| > 0 && snap.report.None?;
      && r.calls == [GetReportHistory] + (if autoLoad then [GetReport(historyOut.value[0].id)] else [])
      && (autoLoad && latestOut.Ok? ==>
            && r.state.report == Some(latestOut.value)
            && r.state.reportId == Some(historyOut.value[0].id)
            && r.state.reportDate == Some(historyOut.value[0].createdAt)
            && r.state.username == HistoryUsername(snap.username, cur.username, latestOut.value))
      && (!(autoLoad && latestOut.Ok?) ==>
            r.state == cur.(history := r.state.history, isLoadingHistory := false))
    ensures r.state.(report := cur.report, reportId := cur.reportId, reportDate := cur.reportDate,
                     username := cur.username, history := cur.history, isLoadingHistory := cur.isLoadingHistory) == cur
  {
    match historyOut
    case Err(_) => Step(cur.(isLoadingHistory := false), [GetReportHistory])
    case Ok(h) =>
      var withHistory := cur.(history := h);
      if |h| > 0 && snap.report.None? then
        var calls := [GetReportHistory, GetReport(h[0].id)];
        match latestOut
        case Err(_) => Step(withHistory.(isLoadingHistory := false), calls)
        case Ok(rep) =>
          Step(withHistory.(report := Some(rep), reportId := Some(h[0].id), reportDate := Some(h[0].createdAt),
                            username := HistoryUsername(snap.username, cur.username, rep),
                            isLoadingHistory := false), calls)
      else Step(withHistory.(isLoadingHistory := false), [GetReportHistory])
  }

  /** `loadReportHistory` invoked on its own (the mount effect): snapshot and current state coincide. */
  function LoadReportHistory(s: DashboardState, historyOut: Outcome<seq<ReportHistoryItem>>, latestOut: Outcome<FullReport>): Step
  {
    LoadHistoryFrom(s, s, historyOut, latestOut)
  }

  /**
   * The mount effect: without a token the page routes to `/auth` and loads
   * nothing; with one it loads the history.
   */
  function OnMount(s: DashboardState, historyOut: Outcome<seq<ReportHistoryItem>>, latestOut: Outcome<FullReport>): (r: Step)
    ensures !TruthyString(s.token) ==> r == Step(s.(route := Some("/auth")), [])
    ensures TruthyString(s.token) ==> r == LoadReportHistory(s, historyOut, latestOut)
  {
    if !TruthyString(s.token) then Step(s.(route := Some("/auth")), [])
    else LoadReportHistory(s, historyOut, latestOut)
  }

  // ---------------------------------------------------------------- handlers

  const AnalyzeFallback: string := "Failed to analyze profile"

  /**
   * `handleFullAnalysis`. Without a token nothing happens. A failed analysis
   * records its message and leaves the report, its id and date alone. A
   * successful one installs the report as unsaved (no id, dated `now`),
   * clears the error, and reloads the history from the same snapshot.
   * Analysing is off afterwards on both paths.
   */
  function HandleFullAnalysis(s: DashboardState, now: string, analysis: Outcome<FullReport>,
                              historyOut: Outcome<seq<ReportHistoryItem>>, latestOut: Outcome<FullReport>): (r: Step)
    ensures !TruthyString(s.token) ==> r == Step(s, [])
    ensures TruthyString(s.token) ==> !r.state.isAnalyzing && |r.calls| >= 1 && r.calls[0] == Analyze
    ensures TruthyString(s.token) && analysis.Err? ==>
      r == Step(s.(isAnalyzing := false, analysisError := Some(MessageOr(analysis.thrown, AnalyzeFallback))), [Analyze])
    ensures TruthyString(s.token) && analysis.Ok? ==>
      && r.state.analysisError.None?
      && r.state.token == s.token
      && (historyOut.Ok? ==> r.state.history == historyOut.value)
      && r.state.(report := s.report, reportId := s.reportId, reportDate := s.reportDate, username := s.username,
                  history := s.history, analysisError := s.analysisError, isAnalyzing := s.isAnalyzing,
                  isLoadingHistory := s.isLoadingHistory) == s
    ensures TruthyString(s.token) && analysis.Ok? &&
            !(historyOut.Ok? && |historyOut.value| > 0 && s.report.None? && latestOut.Ok?) ==>
      && r.state.report == Some(analysis.value)
      && r.state.reportId.None?
      && r.state.reportDate == Some(now)
      && r.state.username == AnalysisUsername(s.username, analysis.value)
    ensures TruthyString(s.token) && analysis.Ok? ==>
      var autoLoad := historyOut.Ok? && |historyOut.value| > 0 && s.report.None?;
      && !r.state.isLoadingHistory
      && r.calls == [Analyze, GetReportHistory] + (if autoLoad then [GetReport(historyOut.value[0].id)] else [])
      && (historyOut.Err? ==> r.state.history == s.history)
      && (autoLoad && latestOut.Ok? ==>
            && r.state.report == Some(latestOut.value)
            && r.state.reportId == Some(historyOut.value[0].id)
            && r.state.reportDate == Some(historyOut.value[0].createdAt)
            && r.state.username == HistoryUsername(s.username, AnalysisUsername(s.username, analysis.value), latestOut.value))
  {
    if !TruthyString(s.token) then Step(s, [])
    else match analysis
      case Err(e) =>
        Step(s.(isAnalyzing := false, analysisError := Some(MessageOr(e, AnalyzeFallback))), [Analyze])
      case Ok(rep) =>
        var installed := s.(report := Some(rep), reportDate := Some(now), reportId := None,
                        username := AnalysisUsername(s.username, rep),
                        analysisError := None, isAnalyzing := true);
        var reload := LoadHistoryFrom(s, installed, historyOut, latestOut);
        Step(reload.state.(isAnalyzing := false), [Analyze] + reload.calls)
  }

  /** `reportHistory.find((r) => r.id === reportId)` */
  function FindItem(history: seq<ReportHistoryItem>, id: int): (r: Option<ReportHistoryItem>)
    ensures r.Some? <==> exists k | 0 <= k < |history| :: history[k].id == id
    ensures r.Some? ==> exists k | 0 <= k < |history| ::
      history[k] == r.value && r.value.id == id && forall j | 0 <= j < k :: history[j].id != id
    decreases |history|
  {
    if |history| == 0 then None
    else if history[0].id == id then Some(history[0])
    else
      var rest := FindItem(history[1..], id);
      assert forall k | 1 <= k < |history| :: history[k] == history[1..][k - 1];
      rest
  }

  /**
   * `handleLoadReport(id)`. On success the report and id are installed and
   * the analysis tab is shown; the date becomes the history entry's when
   * the id is listed, and is otherwise kept. On failure nothing changes.
   */
  function HandleLoadReport(s: DashboardState, id: int, out: Outcome<FullReport>): (r: Step)
    ensures r.calls == [GetReport(id)]
    ensures out.Err? ==> r.state == s
    ensures out.Ok? ==>
      && r.state.report == Some(out.value)
      && r.state.reportId == Some(id)
      && r.state.activeTab == AnalysisTab
      && ((exists k | 0 <= k < |s.history| :: s.history[k].id == id) ==>
            r.state.reportDate == Some(FindItem(s.history, id).value.createdAt))
      && ((forall k | 0 <= k < |s.history| :: s.history[k].id != id) ==> r.state.reportDate == s.reportDate)
      && r.state.(report := s.report, reportId := s.reportId, reportDate := s.reportDate, activeTab := s.activeTab) == s
  {
    match out
    case Err(_) => Step(s, [GetReport(id)])
    case Ok(rep) =>
      var date := match FindItem(s.history, id)
        case Some(item) => Some(item.createdAt)
        case None => s.reportDate;
      Step(s.(report := Some(rep), reportId := Some(id), reportDate := date, activeTab := AnalysisTab), [GetReport(id)])
  }

  /**
   * `handleDeleteReport(id)`. A declined confirmation makes no call and no
   * change; a failed delete changes nothing. A successful delete of the
   * current report clears report, id and date together; deleting any other
   * id leaves them; then the history is reloaded from the same snapshot.
   */
  function HandleDeleteReport(s: DashboardState, id: int, confirmed: bool, deleteOut: Outcome<()>,
                              historyOut: Outcome<seq<ReportHistoryItem>>, latestOut: Outcome<FullReport>): (r: Step)
    ensures !confirmed ==> r == Step(s, [])
    ensures confirmed && deleteOut.Err? ==> r == Step(s, [DeleteReport(id)])
    ensures confirmed && deleteOut.Ok? ==> |r.calls| >= 2 && r.calls[..2] == [DeleteReport(id), GetReportHistory]
    ensures confirmed && deleteOut.Ok? ==>
      var cleared := if s.reportId == Some(id) then s.(report := None, reportId := None, reportDate := None) else s;
      var reload := LoadHistoryFrom(s, cleared, historyOut, latestOut);
      && r.state == reload.state
      && r.calls == [DeleteReport(id)] + reload.calls
      && !r.state.isLoadingHistory
      && (historyOut.Ok? ==> r.state.history == historyOut.value)
      && r.state.token == s.token && r.state.activeTab == s.activeTab && r.state.route == s.route
      && r.state.analysisError == s.analysisError && r.state.isAnalyzing == s.isAnalyzing
      && (s.reportId == Some(id) && s.report.Some? ==> r.state.report.None? && r.state.reportId.None? && r.state.reportDate.None?)
      && (s.reportId != Some(id) && s.report.Some? ==>
            r.state.report == s.report && r.state.reportId == s.reportId && r.state.reportDate == s.reportDate)
  {
    if !confirmed then Step(s, [])
    else match deleteOut
      case Err(_) => Step(s, [DeleteReport(id)])
      case Ok(_) =>
        var cleared := if s.reportId == Some(id) then s.(report := None, reportId := None, reportDate := None) else s;
        var reload := LoadHistoryFrom(s, cleared, historyOut, latestOut);
        Step(reload.state, [DeleteReport(id)] + reload.calls)
  }

  /** `handleLogout`: the token is cleared and the page routes home; nothing else changes. */
  function HandleLogout(s: DashboardState): (r: DashboardState)
    ensures r.token.None? && r.route == Some("/")
    ensures r.(token := s.token, route := s.route) == s
  {
    s.(token := None, route := Some("/"))
  }

  /**
   * Clearing the token re-runs the mount effect, which depends on it: the
   * page ends at `/auth`, not `/`, and a later analysis does nothing.
   */
  lemma LogoutEndsAtAuth(s: DashboardState, now: string, analysis: Outcome<FullReport>,
                         historyOut: Outcome<seq<ReportHistoryItem>>, latestOut: Outcome<FullReport>)
    ensures OnMount(HandleLogout(s), historyOut, latestOut) == Step(s.(token := None, route := Some("/auth")), [])
    ensures HandleFullAnalysis(HandleLogout(s), now, analysis, historyOut, latestOut) == Step(HandleLogout(s), [])
  {
  }

  /** A tab button. */
  function SelectTab(s: DashboardState, t: Tab): (r: DashboardState)
    ensures r.activeTab == t && r.(activeTab := s.activeTab) == s
  {
    s.(activeTab := t)
  }

  // ---------------------------------------------------------------- views

  /** The analysis panel the analysis tab shows for this state. */
  function AnalysisPanel(s: DashboardState): AnalysisSection.Panel
  {
    AnalysisSection.SelectPanel(s.isAnalyzing, s.analysisError, s.report)
  }

  /** The date line and "Re-analyze" button above the panel appear only with a report and a date. */
  predicate ShowsReportHeader(s: DashboardState)
  {
    s.report.Some? && TruthyString(s.reportDate)
  }

  /** In a consistent state the header is governed by the date alone: a date implies a report. */
  lemma HeaderFollowsDate(s: DashboardState)
    requires Consistent(s)
    ensures ShowsReportHeader(s) <==> TruthyString(s.reportDate)
  {
  }

  /**
   * After a failed analysis the panel shows the thrown error's message, or
   * the fallback for a non-error value; an error with an empty message is
   * not shown, and whatever was on screen before stays.
   */
  lemma FailedAnalysisPanel(s: DashboardState, now: string, e: Thrown,
                            historyOut: Outcome<seq<ReportHistoryItem>>, latestOut: Outcome<FullReport>)
    requires TruthyString(s.token)
    ensures var r := HandleFullAnalysis(s, now, Err(e), historyOut, latestOut).state;
      && (e.ErrorValue? && e.message != "" ==> AnalysisPanel(r) == AnalysisSection.ErrorPanel(e.message))
      && (e.OtherValue? ==> AnalysisPanel(r) == AnalysisSection.ErrorPanel(AnalyzeFallback))
      && (e.ErrorValue? && e.message == "" && s.report.Some? ==>
            AnalysisPanel(r) == AnalysisSection.ReportPanel(AnalysisSection.RenderReport(s.report.value)))
      && (e.ErrorValue? && e.message == "" && s.report.None? ==> AnalysisPanel(r) == AnalysisSection.EmptyState)
  {
  }

  datatype HistoryRow = HistoryRow(id: int, createdAt: string, isCurrent: bool)

  datatype HistoryView = HistoryLoading | NoReports | Rows(rows: seq<HistoryRow>)

  /** The history tab: a spinner while loading, an empty notice, or one row per entry, current id marked. */
  function HistoryTabView(s: DashboardState): (v: HistoryView)
    ensures v.HistoryLoading? <==> s.isLoadingHistory
    ensures v.NoReports? <==> !s.isLoadingHistory && |s.history| == 0
    ensures v.Rows? ==> |v.rows| == |s.history| && forall i | 0 <= i < |s.history| ::
      v.rows[i].id == s.history[i].id && (v.rows[i].isCurrent <==> s.reportId == Some(s.history[i].id))
  {
    if s.isLoadingHistory then HistoryLoading
    else if |s.history| == 0 then NoReports
    else Rows(seq(|s.history|, i requires 0 <= i < |s.history| =>
      HistoryRow(s.history[i].id, s.history[i].createdAt, s.reportId == Some(s.history[i].id))))
  }

  // ---------------------------------------------------------------- properties

  /** Every transition keeps a report id or date from outliving the report. */
  lemma HistoryLoadsPreserveConsistent(s: DashboardState, historyOut: Outcome<seq<ReportHistoryItem>>,
                                       latestOut: Outcome<FullReport>)
    requires Consistent(s)
    ensures Consistent(OnMount(s, historyOut, latestOut).state)
  {
  }

  lemma AnalysisPreservesConsistent(s: DashboardState, now: string, analysis: Outcome<FullReport>,
                                    historyOut: Outcome<seq<ReportHistoryItem>>, latestOut: Outcome<FullReport>)
    requires Consistent(s)
    ensures Consistent(HandleFullAnalysis(s, now, analysis, historyOut, latestOut).state)
  {
  }

  lemma LoadAndDeletePreserveConsistent(s: DashboardState, id: int, confirmed: bool, loaded: Outcome<FullReport>,
                                        deleted: Outcome<()>, historyOut: Outcome<seq<ReportHistoryItem>>,
                                        latestOut: Outcome<FullReport>)
    requires Consistent(s)
    ensures Consistent(HandleLoadReport(s, id, loaded).state)
    ensures Consistent(HandleDeleteReport(s, id, confirmed, deleted, historyOut, latestOut).state)
  {
  }

  /**
   * Deleting the current report clears report, id and date, and the
   * reload does not bring another one in: the reload's snapshot still
   * held the deleted report, so its auto-load does not fire.
   */
  lemma DeleteCurrentClears(s: DashboardState, id: int,
                            historyOut: Outcome<seq<ReportHistoryItem>>, latestOut: Outcome<FullReport>)
    requires Consistent(s) && s.reportId == Some(id)
    ensures var r := HandleDeleteReport(s, id, true, Ok(()), historyOut, latestOut);
      && r.state.report.None? && r.state.reportId.None? && r.state.reportDate.None?
      && r.calls == [DeleteReport(id), GetReportHistory]
      && (historyOut.Ok? ==> r.state.history == historyOut.value)
  {
  }

  /** Deleting an id other than the current one leaves the current report, id and date as they were. */
  lemma DeleteOtherKeeps(s: DashboardState, id: int,
                         historyOut: Outcome<seq<ReportHistoryItem>>, latestOut: Outcome<FullReport>)
    requires s.reportId != Some(id) && s.report.Some?
    ensures var r := HandleDeleteReport(s, id, true, Ok(()), historyOut, latestOut);
      && r.state.report == s.report && r.state.reportId == s.reportId && r.state.reportDate == s.reportDate
      && r.calls == [DeleteReport(id), GetReportHistory]
  {
  }

  /**
   * The first fresh analysis of a session (no report in the snapshot) is
   * followed by a reload that still sees no report, so the latest saved
   * report replaces the fresh one, with its id and date.
   */
  lemma FreshAnalysisReplacedByLatest(s: DashboardState, now: string, analysed: FullReport,
                                      h: seq<ReportHistoryItem>, latest: FullReport)
    requires TruthyString(s.token) && s.report.None? && |h| > 0
    ensures var r := HandleFullAnalysis(s, now, Ok(analysed), Ok(h), Ok(latest));
      && r.state.report == Some(latest)
      && r.state.reportId == Some(h[0].id)
      && r.state.reportDate == Some(h[0].createdAt)
      && r.calls == [Analyze, GetReportHistory, GetReport(h[0].id)]
      && !r.state.isAnalyzing && r.state.analysisError.None?
  {
  }

  /** With a report already shown, a history load never fetches or replaces it. */
  lemma NoAutoLoadOverReport(s: DashboardState, historyOut: Outcome<seq<ReportHistoryItem>>, latestOut: Outcome<FullReport>)
    requires s.report.Some?
    ensures var r := LoadReportHistory(s, historyOut, latestOut);
      && r.calls == [GetReportHistory]
      && r.state.report == s.report && r.state.reportId == s.reportId && r.state.reportDate == s.reportDate
      && r.state.username == s.username
  {
  }

  function Repo(name: string): RepoReport
  {
    RepoReport(name, [], "")
  }

  /** A name whose owner part is empty ("/x") is skipped in favour of the next candidate. */
  lemma LeadingSlashSkipped()
    ensures FirstOwner([Repo("/x"), Repo("alice/y")]) == Some("alice")
  {
    var r0 := FirstSegment("/x", '/');
    assert |r0| == 0;
    FirstSegmentOf("alice", '/', "y");
    assert "alice" + "/" + "y" == "alice/y";
    assert "alice/y"[5] == '/';
    var repos := [Repo("/x"), Repo("alice/y")];
    assert !Candidate(repos[0]);
    assert FirstOwner(repos[1..]) == Some("alice") by {
      assert repos[1..] == [Repo("alice/y")];
    }
  }

  /**
   * With no username yet, both lists holding candidates and no report in
   * the snapshot, a fresh analysis takes the hub owner while a history
   * load ends with the flagship owner, because its flagship scan runs
   * after the hub scan under the same stale gate.
   */
  lemma FlagshipOwnerWinsInHistory(s: DashboardState, latest: FullReport, h: seq<ReportHistoryItem>)
    requires !TruthyString(s.username) && s.report.None? && |h| > 0
    requires FirstOwner(latest.projectHubs).Some? && FirstOwner(latest.flagshipProjects).Some?
    ensures LoadReportHistory(s, Ok(h), Ok(latest)).state.username == FirstOwner(latest.flagshipProjects)
    ensures AnalysisUsername(s.username, latest) == FirstOwner(latest.projectHubs)
  {
  }

  /**
   * Re-analysing while a report is shown leaves the fresh report on
   * screen: the header with the new date appears and the analysis tab
   * renders the fresh report.
   */
  lemma ReanalyzeShowsFreshReport(s: DashboardState, now: string, analysed: FullReport,
                                  historyOut: Outcome<seq<ReportHistoryItem>>, latestOut: Outcome<FullReport>)
    requires TruthyString(s.token) && now != "" && s.report.Some?
    ensures var r := HandleFullAnalysis(s, now, Ok(analysed), historyOut, latestOut).state;
      && ShowsReportHeader(r) && r.reportDate == Some(now) && r.reportId.None?
      && AnalysisPanel(r) == AnalysisSection.ReportPanel(AnalysisSection.RenderReport(analysed))
  {
  }
}

=== FILE: decimal.dfy ===
/** `String(n)` for the non-negative integers the client prints (statuses, counts). */
module Decimal {

  predicate IsDigit(c: char)
  {
    '0' <= c <= '9'
  }

  predicate AllDigits(s: string)
  {
    forall i | 0 <= i < |s| :: IsDigit(s[i])
  }

  function DigitChar(d: nat): (c: char)
    requires d < 10
    ensures IsDigit(c)
  {
    ('0' as int + d) as char
  }

  function DigitValue(c: char): nat
    requires IsDigit(c)
  {
    c as int - '0' as int
  }

  /**
   * The decimal rendering of `n`: at least one digit, only digits, and no
   * leading zero unless `n` itself is zero.
   */
  function NatToString(n: nat): (s: string)
    ensures |s| >= 1
    ensures AllDigits(s)
    ensures s[0] == '0' ==> n == 0 && |s| == 1
    decreases n
  {
    if n < 10 then [DigitChar(n)] else NatToString(n / 10) + [DigitChar(n % 10)]
  }

  /** Reads a string of decimal digits back as a number. */
  function ParseDigits(s: string): nat
    requires AllDigits(s)
  {
    if |s| == 0 then 0 else ParseDigits(s[..|s| - 1]) * 10 + DigitValue(s[|s| - 1])
  }

  /** The rendering loses nothing: reading it back yields the number. */
  lemma {:induction false} ParseNatToString(n: nat)
    ensures ParseDigits(NatToString(n)) == n
    decreases n
  {
    if n >= 10 {
      var s := NatToString(n);
      assert s[..|s| - 1] == NatToString(n / 10);
      ParseNatToString(n / 10);
    }
  }

  /** Distinct numbers render differently. */
  lemma NatToStringInjective(m: nat, n: nat)
    requires NatToString(m) == NatToString(n)
    ensures m == n
  {
    ParseNatToString(m);
    ParseNatToString(n);
  }

  /** The longest run of digits at the start of `s`: how a reader picks a number off the front of a line. */
  function LeadingDigits(s: string): (d: string)
    ensures |d| <= |s| && d == s[..|d|] && AllDigits(d)
    ensures |d| < |s| ==> !IsDigit(s[|d|])
    decreases |s|
  {
    if |s| > 0 && IsDigit(s[0]) then [s[0]] + LeadingDigits(s[1..]) else ""
  }

  /** A digit string followed by a non-digit (or nothing) is read off whole. */
  lemma {:induction false} LeadingDigitsOf(d: string, t: string)
    requires AllDigits(d) && (t == "" || !IsDigit(t[0]))
    ensures LeadingDigits(d + t) == d
    decreases |d|
  {
    if |d| > 0 {
      assert (d + t)[1..] == d[1..] + t;
      LeadingDigitsOf(d[1..], t);
    }
  }
}

=== FILE: js_strings.dfy ===
/**
 * The few ECMAScript string operations the client relies on: `trim`,
 * `includes`, `split`/`join` on one separator, and the case mappings used by
 * `toUpperCase`/`toLowerCase`. Characters are Unicode scalar values; the case
 * tables cover Basic Latin and Latin-1 Supplement.
 */
module JsStrings {

  /** The WhiteSpace and LineTerminator code points that `String.prototype.trim` strips. */
  predicate IsJsWhitespace(c: char)
  {
    || c == '\t' || c == '\n' || c == '\U{B}' || c == '\U{C}' || c == '\r' || c == ' '
    || c == '\U{A0}' || c == '\U{1680}' || ('\U{2000}' <= c <= '\U{200A}')
    || c == '\U{2028}' || c == '\U{2029}' || c == '\U{202F}' || c == '\U{205F}'
    || c == '\U{3000}' || c == '\U{FEFF}'
  }

  /** Every character is whitespace; the empty string is blank. */
  predicate Blank(s: string)
  {
    forall i | 0 <= i < |s| :: IsJsWhitespace(s[i])
  }

  /** Drops leading whitespace: the result is the suffix left after a blank prefix. */
  function TrimStart(s: string): (r: string)
    ensures |r| <= |s| && r == s[|s| - |r|..]
    ensures Blank(s[..|s| - |r|])
    ensures r == "" || !IsJsWhitespace(r[0])
  {
    if |s| > 0 && IsJsWhitespace(s[0]) then
      var t := s[1..];
      var r := TrimStart(t);
      assert s[|s| - |r|..] == t[|t| - |r|..];
      assert s[..|s| - |r|] == [s[0]] + t[..|t| - |r|];
      r
    else s
  }

  /** Drops trailing whitespace: the result is the prefix left before a blank suffix. */
  function TrimEnd(s: string): (r: string)
    ensures |r| <= |s| && r == s[..|r|]
    ensures Blank(s[|r|..])
    ensures r == "" || !IsJsWhitespace(r[|r| - 1])
  {
    if |s| > 0 && IsJsWhitespace(s[|s| - 1]) then
      var t := s[..|s| - 1];
      var r := TrimEnd(t);
      assert s[..|r|] == t[..|r|];
      assert s[|r|..] == t[|r|..] + [s[|s| - 1]];
      r
    else s
  }

  /** `s.trim()` */
  function Trim(s: string): string
  {
    TrimEnd(TrimStart(s))
  }

  /** `!s.trim()` holds exactly when every character of `s` is whitespace. */
  lemma TrimEmptyIffBlank(s: string)
    ensures Trim(s) == "" <==> Blank(s)
  {
    if Trim(s) == "" {
      EmptyTrimIsBlank(s);
    }
  }

  lemma EmptyTrimIsBlank(s: string)
    requires Trim(s) == ""
    ensures Blank(s)
  {
    var t := TrimStart(s);
    var k := |s| - |t|;
    assert Blank(t) by {
      assert t[0..] == t;
    }
    assert Blank(s[..k]);
    forall i | 0 <= i < |s|
      ensures IsJsWhitespace(s[i])
    {
      if i < k {
        assert s[i] == s[..k][i];
      } else {
        assert s[i] == t[i - k];
      }
    }
  }

  /** `p` occurs in `s` starting at index `i`. */
  ghost predicate OccursAt(s: string, p: string, i: int)
  {
    0 <= i && i + |p| <= |s| && s[i..i + |p|] == p
  }

  /** `s.includes(p)` */
  function Contains(s: string, p: string): bool
    decreases |s|
  {
    if |p| > |s| then false
    else if s[..|p|] == p then true
    else Contains(s[1..], p)
  }

  /** `includes` finds an occurrence wherever one exists. */
  lemma {:induction false} ContainsSpec(s: string, p: string)
    ensures Contains(s, p) <==> exists i :: OccursAt(s, p, i)
    decreases |s|
  {
    if |p| > |s| {
    } else if s[..|p|] == p {
      assert OccursAt(s, p, 0);
    } else {
      ContainsSpec(s[1..], p);
      if exists i :: OccursAt(s, p, i) {
        var i :| OccursAt(s, p, i);
        assert i != 0;
        assert s[1..][i - 1..i - 1 + |p|] == s[i..i + |p|];
        assert OccursAt(s[1..], p, i - 1);
      }
      if Contains(s[1..], p) {
        var j :| OccursAt(s[1..], p, j);
        assert s[1..][j..j + |p|] == s[j + 1..j + 1 + |p|];
        assert OccursAt(s, p, j + 1);
      }
    }
  }

  /** Lower-case mapping of one character (Basic Latin and Latin-1 capitals). */
  function LowerChar(c: char): char
  {
    if 'A' <= c <= 'Z' || ('\U{C0}' <= c <= '\U{DE}' && c != '\U{D7}') then (c as int + 32) as char
    else c
  }

  /** `s.toLowerCase()` */
  function Lower(s: string): string
  {
    seq(|s|, i requires 0 <= i < |s| => LowerChar(s[i]))
  }

  /**
   * Upper-case mapping of one character, as a string because `toUpperCase`
   * may expand a character ('ß' becomes "SS").
   */
  function UpperChar(c: char): string
  {
    if 'a' <= c <= 'z' || ('\U{E0}' <= c <= '\U{FE}' && c != '\U{F7}') then [(c as int - 32) as char]
    else if c == '\U{FF}' then ['\U{178}']
    else if c == '\U{B5}' then ['\U{39C}']
    else if c == '\U{DF}' then "SS"
    else [c]
  }

  /** `s.split(sep)` for a one-character separator: never an empty list. */
  function Split(s: string, sep: char): (parts: seq<string>)
    ensures |parts| >= 1
    ensures forall k | 0 <= k < |parts| :: sep !in parts[k]
    decreases |s|
  {
    if |s| == 0 then [""]
    else if s[0] == sep then [""] + Split(s[1..], sep)
    else
      var rest := Split(s[1..], sep);
      [[s[0]] + rest[0]] + rest[1..]
  }

  /** `parts.join(sep)` */
  function Join(parts: seq<string>, sep: string): string
    decreases |parts|
  {
    if |parts| == 0 then ""
    else if |parts| == 1 then parts[0]
    else parts[0] + sep + Join(parts[1..], sep)
  }

  /** Prefixing the first part prefixes the joined string. */
  lemma {:induction false} JoinPrepend(a: string, parts: seq<string>, sep: string)
    requires |parts| >= 1
    ensures Join([a + parts[0]] + parts[1..], sep) == a + Join(parts, sep)
  {
    var ps := [a + parts[0]] + parts[1..];
    if |parts| > 1 {
      assert ps[1..] == parts[1..];
    }
  }

  /** Splitting and joining on the same separator gives back the string. */
  lemma {:induction false} JoinSplit(s: string, sep: char)
    ensures Join(Split(s, sep), [sep]) == s
    decreases |s|
  {
    if |s| == 0 {
    } else if s[0] == sep {
      JoinSplit(s[1..], sep);
      var ps := [""] + Split(s[1..], sep);
      assert ps[1..] == Split(s[1..], sep);
      assert s == [sep] + s[1..];
    } else {
      var rest := Split(s[1..], sep);
      JoinSplit(s[1..], sep);
      JoinPrepend([s[0]], rest, [sep]);
      assert [s[0]] + rest[0] == [s[0]] + rest[0];
      assert s == [s[0]] + s[1..];
    }
  }

  /** `s.split(sep)[0]`: the text before the first separator. */
  function FirstSegment(s: string, sep: char): (r: string)
    ensures |r| <= |s| && r == s[..|r|]
    ensures sep !in r
    ensures |r| < |s| ==> s[|r|] == sep
  {
    FirstSegmentProperties(s, sep);
    Split(s, sep)[0]
  }

  lemma {:induction false} FirstSegmentProperties(s: string, sep: char)
    ensures var r := Split(s, sep)[0]; |r| <= |s| && r == s[..|r|] && (|r| < |s| ==> s[|r|] == sep)
    decreases |s|
  {
    if |s| > 0 && s[0] != sep {
      FirstSegmentProperties(s[1..], sep);
    }
  }

  /** The text before the first separator of `a + sep + b` is `a`, whenever `a` holds no separator. */
  lemma FirstSegmentOf(a: string, sep: char, b: string)
    requires sep !in a
    ensures FirstSegment(a + [sep] + b, sep) == a
  {
    var s := a + [sep] + b;
    assert s[|a|] == sep;
    assert s[..|a|] == a;
  }
}

=== FILE: market_match.dfy ===
/**
 * The market-match requester: the fixed job catalogue, its guards, the
 * request it sends, its result/error state, and the match score it shows.
 */
module MarketMatchSection {
  import opened Wrappers
  import opened Outcomes
  import opened Decimal
  import opened ApiTypes
  import opened ApiClient
  import opened SkillChips

  const JobTitles: seq<string> := [
    "Data Engineer",
    "ML Engineer",
    "Senior React Developer",
    "Senior Python Backend Developer",
    "DevOps Engineer",
    "Generative AI Specialist",
    "Cloud Solutions Architect",
    "Security Engineer",
    "Mobile App Developer",
    "AI Product Engineer",
    "Data Scientist",
    "Full Stack Engineer",
    "Site Reliability Engineer (SRE)",
    "AI Infrastructure Engineer",
    "Data Platform Engineer",
    "Blockchain Developer",
    "Computer Vision Engineer",
    "AI Prompt Engineer",
    "Automation Engineer",
    "Embedded Systems Engineer"
  ]

  /** The values the job `<select>` can hold: the "" placeholder, then every title. */
  const JobOptions: seq<string> := [""] + JobTitles

  /** The catalogue has twenty distinct, non-empty titles, so only the placeholder is empty. */
  lemma JobOptionsShape()
    ensures |JobTitles| == 20
    ensures forall i, j | 0 <= i < j < |JobOptions| :: JobOptions[i] != JobOptions[j]
    ensures forall v | v in JobOptions :: v == "" <==> v == JobOptions[0]
  {
  }

  datatype MarketState = MarketState(
    gap: Option<GapAnalysis>,
    isAnalyzing: bool,
    selectedJob: string,
    error: Option<string>)

  /** `useState("")` and friends: nothing selected, nothing shown. */
  function InitialMarketState(): (s: MarketState)
    ensures ValidSelection(s) && s.selectedJob == "" && s.gap.None? && s.error.None? && !s.isAnalyzing
  {
    MarketState(None, false, "", None)
  }

  /** The state keeps a selection the `<select>` can actually hold. */
  predicate ValidSelection(s: MarketState)
  {
    s.selectedJob in JobOptions
  }

  /** The `<select>`'s `onChange`: its value is always one of the options. */
  function SelectJob(s: MarketState, value: string): (r: MarketState)
    requires value in JobOptions
    ensures r.selectedJob == value && ValidSelection(r)
    ensures r.(selectedJob := s.selectedJob) == s
  {
    s.(selectedJob := value)
  }

  datatype Rejection = NoJob | NoSkills

  datatype MarketStep = MarketStep(state: MarketState, sent: Option<Request>, rejected: Option<Rejection>)

  const MarketFallback: string := "Failed to analyze market fit"

  /**
   * `handleAnalyze`. No selected job is rejected first, then a missing
   * report or empty skill list; a rejection changes nothing and sends
   * nothing. Otherwise the request is `{user_skills, job_title}` with the
   * full skill list; success stores the gap analysis and clears the error,
   * failure stores the message and keeps the previous analysis.
   */
  function HandleAnalyze(s: MarketState, report: Option<FullReport>, apiBase: string, t: Transport<GapAnalysis>): (r: MarketStep)
    ensures s.selectedJob == "" ==> r == MarketStep(s, None, Some(NoJob))
    ensures s.selectedJob != "" && |SkillsOf(report)| == 0 ==> r == MarketStep(s, None, Some(NoSkills))
    ensures r.sent.Some? <==> s.selectedJob != "" && |SkillsOf(report)| > 0
    ensures r.sent.Some? ==>
      && r.rejected.None?
      && r.sent.value.url == apiBase + "/market-match"
      && r.sent.value.verb == Some("POST") && r.sent.value.headers == ContentTypeJson
      && r.sent.value.body.Some?
      && DecodeMarketMatchRequest(r.sent.value.body.value) == Some(MarketMatchRequest(report.value.skillConstellation, s.selectedJob))
      && !r.state.isAnalyzing
      && r.state.selectedJob == s.selectedJob
      && (Fetch(t).Ok? ==> r.state.gap == Some(Fetch(t).value) && r.state.error.None?)
      && (Fetch(t).Err? ==> r.state.gap == s.gap && r.state.error == Some(Fetch(t).thrown.message))
  {
    var skills := SkillsOf(report);
    if s.selectedJob == "" then MarketStep(s, None, Some(NoJob))
    else if |skills| == 0 then MarketStep(s, None, Some(NoSkills))
    else
      var request := MarketMatchCall(apiBase, MarketMatchRequest(skills, s.selectedJob));
      var s' := match Fetch(t)
        case Ok(gap) => s.(gap := Some(gap), error := None, isAnalyzing := false)
        case Err(e) => s.(error := Some(MessageOr(e, MarketFallback)), isAnalyzing := false);
      MarketStep(s', Some(request), None)
  }

  /** Every step keeps the selection valid. */
  lemma HandleAnalyzeKeepsSelection(s: MarketState, report: Option<FullReport>, apiBase: string, t: Transport<GapAnalysis>)
    requires ValidSelection(s)
    ensures ValidSelection(HandleAnalyze(s, report, apiBase, t).state)
  {
  }

  /** The analyze button is disabled while analysing, without a report, or with no job selected. */
  predicate AnalyzeDisabled(s: MarketState, report: Option<FullReport>)
  {
    s.isAnalyzing || report.None? || s.selectedJob == ""
  }

  /** An enabled button never hits the job guard; only an empty skill list can still stop it. */
  lemma EnabledNeverRejectsJob(s: MarketState, report: Option<FullReport>, apiBase: string, t: Transport<GapAnalysis>)
    requires !AnalyzeDisabled(s, report)
    ensures HandleAnalyze(s, report, apiBase, t).rejected != Some(NoJob)
    ensures HandleAnalyze(s, report, apiBase, t).sent.Some? <==> |report.value.skillConstellation| > 0
  {
  }

  /** The "Your Current Skills" row: shown only with a report; twelve chips, then "+N more". */
  function CurrentSkillsRow(report: Option<FullReport>): (r: Option<ChipRow>)
    ensures r.Some? <==> report.Some?
    ensures r.Some? ==> r.value == Truncate(report.value.skillConstellation, 12)
  {
    if report.Some? then Some(Truncate(report.value.skillConstellation, 12)) else None
  }

  // ---------------------------------------------------------------- match score

  /**
   * `100 * m / total` rounded half up, in exact arithmetic: the integer
   * nearest the percentage, ties going up.
   */
  function RoundedPercent(m: nat, total: nat): (r: int)
    requires 0 < total
    ensures 200 * m - total < 2 * r * total <= 200 * m + total
  {
    (200 * m + total) / (2 * total)
  }

  /**
   * The score shown for a gap analysis. With no skills on either side the
   * source divides zero by zero (`NaN`); that is `None` here.
   */
  function MatchScore(g: GapAnalysis): (r: Option<int>)
    ensures r.None? <==> |g.matchingSkills| + |g.missingSkills| == 0
    ensures r.Some? ==> 0 <= r.value <= 100
    ensures r.Some? && |g.missingSkills| == 0 ==> r.value == 100
    ensures r.Some? && |g.matchingSkills| == 0 ==> r.value == 0
    ensures r.Some? ==> r.value == RoundedPercent(|g.matchingSkills|, |g.matchingSkills| + |g.missingSkills|)
  {
    var m, n := |g.matchingSkills|, |g.missingSkills|;
    if m + n == 0 then None
    else
      var r := RoundedPercent(m, m + n);
      ScoreBounds(m, m + n, r);
      Some(r)
  }

  lemma ScoreBounds(m: nat, total: nat, r: int)
    requires 0 < total && m <= total
    requires 200 * m - total < 2 * r * total <= 200 * m + total
    ensures 0 <= r <= 100
    ensures m == total ==> r == 100
    ensures m == 0 ==> r == 0
  {
    if r < 0 { MulMonotone(2 * r, -2, total); }
    if r > 100 { MulMonotone(202, 2 * r, total); }
    if m == total && r < 100 { MulMonotone(2 * r, 198, total); }
    if m == 0 && r > 0 { MulMonotone(2, 2 * r, total); }
  }

  /** Multiplying by the same count keeps the order. */
  lemma {:induction false} MulMonotone(a: int, b: int, t: nat)
    requires a <= b
    ensures a * t <= b * t
    decreases t
  {
    if t > 0 {
      MulMonotone(a, b, t - 1);
      assert a * t == a * (t - 1) + a;
      assert b * t == b * (t - 1) + b;
    }
  }

  /** The extremes are not reached only at the ends: 199 of 200 rounds to 100, and 1 of 201 to 0. */
  lemma ExtremesAlsoNearTheEnds()
    ensures RoundedPercent(199, 200) == 100 && RoundedPercent(1, 201) == 0
  {
  }

  /** Three matching and seven missing skills score 30. */
  lemma ScoreThreeOfTen()
    ensures MatchScore(GapAnalysis(["a", "b", "c"], ["d", "e", "f", "g", "h", "i", "j"], "")) == Some(30)
  {
  }

  const OfSeparator: string := " of "
  const MatchedWording: string := " required skills matched"

  /** The "m of total required skills matched" line. */
  function MatchedLine(g: GapAnalysis): (r: string)
    ensures var m := |g.matchingSkills|; var total := m + |g.missingSkills|;
      r == NatToString(m) + OfSeparator + NatToString(total) + MatchedWording
  {
    NatToString(|g.matchingSkills|) + OfSeparator + NatToString(|g.matchingSkills| + |g.missingSkills|) + MatchedWording
  }

  /**
   * The matched line reads back: the number at its start is the matched
   * count, then " of ", then the total, then the fixed wording.
   */
  lemma {:induction false} MatchedLineReadsBack(g: GapAnalysis)
    ensures var line := MatchedLine(g); var a := LeadingDigits(line);
      && ParseDigits(a) == |g.matchingSkills|
      && |line| >= |a| + 4 && line[|a|..|a| + 4] == OfSeparator
      && var rest := line[|a| + 4..]; var b := LeadingDigits(rest);
        && ParseDigits(b) == |g.matchingSkills| + |g.missingSkills|
        && rest[|b|..] == MatchedWording
  {
    var m, total := |g.matchingSkills|, |g.matchingSkills| + |g.missingSkills|;
    var line := MatchedLine(g);
    WordingStartsWithNonDigit();
    NumbersReadBack(m, total, OfSeparator, MatchedWording);
    assert line == NatToString(m) + OfSeparator + NatToString(total) + MatchedWording;
  }

  lemma WordingStartsWithNonDigit()
    ensures |OfSeparator| == 4 && !IsDigit(OfSeparator[0]) && !IsDigit(MatchedWording[0])
  {
  }

  /** The decimal texts of `m` and `total`, around `mid` and before `tail`, parse back to `m` and `total`. */
  lemma {:induction false} NumbersReadBack(m: nat, total: nat, mid: string, tail: string)
    requires |mid| == 4 && !IsDigit(mid[0]) && (tail == "" || !IsDigit(tail[0]))
    ensures var line := NatToString(m) + mid + NatToString(total) + tail; var a := LeadingDigits(line);
      && ParseDigits(a) == m
      && |line| >= |a| + 4 && line[|a|..|a| + 4] == mid
      && var rest := line[|a| + 4..]; var b := LeadingDigits(rest);
        && ParseDigits(b) == total
        && rest[|b|..] == tail
  {
    var a, b := NatToString(m), NatToString(total);
    DigitFieldsReadBack(a, b, mid, tail);
    DropPrefix(b, tail);
    ParseNatToString(m);
    ParseNatToString(total);
  }

  /** Two digit strings separated by `mid` (starting with a non-digit) and followed by `tail` are read back off the line. */
  lemma {:induction false} DigitFieldsReadBack(a: string, b: string, mid: string, tail: string)
    requires AllDigits(a) && AllDigits(b)
    requires |mid| > 0 && !IsDigit(mid[0]) && (tail == "" || !IsDigit(tail[0]))
    ensures var line := a + mid + b + tail;
      && LeadingDigits(line) == a
      && line[|a|..|a| + |mid|] == mid
      && line[|a| + |mid|..] == b + tail
      && LeadingDigits(b + tail) == b
  {
    FieldSlices(a, mid, b + tail);
    assert a + mid + b + tail == a + (mid + (b + tail));
    LeadingDigitsOf(a, mid + (b + tail));
    LeadingDigitsOf(b, tail);
  }

  /** The pieces of `a + mid + rest` are where they were put. */
  lemma FieldSlices(a: string, mid: string, rest: string)
    ensures var line := a + mid + rest;
      && line == a + (mid + rest)
      && line[|a|..|a| + |mid|] == mid
      && line[|a| + |mid|..] == rest
  {
    var line := a + mid + rest;
    assert line == (a + mid) + rest;
    DropPrefix(a + mid, rest);
    assert line[|a|..|a| + |mid|] == mid;
  }

  lemma DropPrefix(p: string, q: string)
    ensures (p + q)[|p|..] == q
  {
  }
}

=== FILE: skill_chips.dfy ===
/** The "first k chips, then a +N badge" pattern the dashboard panels share. */
module SkillChips {
  import opened Wrappers
  import Utils

  /** The chips drawn for a skill list, and the number in the overflow badge when there is one. */
  datatype ChipRow = ChipRow(chips: seq<string>, overflow: Option<nat>)

  /**
   * `items.slice(0, limit).map(formatSkillName)` followed by the badge
   * `+{items.length - limit}` exactly when `items.length > limit`. Chips and
   * badge together account for every item: none dropped, none repeated.
   */
  function Truncate(items: seq<string>, limit: nat): (r: ChipRow)
    ensures |r.chips| == (if |items| < limit then |items| else limit)
    ensures forall i | 0 <= i < |r.chips| :: r.chips[i] == Utils.FormatSkillName(items[i])
    ensures r.overflow.Some? <==> |items| > limit
    ensures |r.chips| + (if r.overflow.Some? then r.overflow.value else 0) == |items|
  {
    var n := if |items| < limit then |items| else limit;
    ChipRow(seq(n, i requires 0 <= i < n => Utils.FormatSkillName(items[i])),
            if |items| > limit then Some(|items| - limit) else None)
  }
}

=== FILE: utils.dfy ===
/** Pure display helpers of the client: skill-name formatting and archetype styling. */
module Utils {
  import opened JsStrings

  /** `word.charAt(0).toUpperCase() + word.slice(1)`; the empty word stays empty. */
  function Capitalize(w: string): string
  {
    if w == "" then "" else UpperChar(w[0]) + w[1..]
  }

  function CapitalizeAll(ws: seq<string>): seq<string>
  {
    seq(|ws|, k requires 0 <= k < |ws| => Capitalize(ws[k]))
  }

  /**
   * `skill.split("-").map(capitalize).join(" ")`. The result never contains
   * '-', and it is empty exactly when the input is.
   */
  function FormatSkillName(skill: string): (r: string)
    ensures '-' !in r
    ensures r == "" <==> skill == ""
  {
    FormatIsScan(skill);
    ScanNoDash(skill, true);
    Join(CapitalizeAll(Split(skill, '-')), " ")
  }

  /**
   * The same formatting read left to right, one character at a time: '-'
   * becomes ' ', the first character of each segment is upper-cased, every
   * other character is copied. `atStart` says whether a segment begins here.
   */
  function Scan(s: string, atStart: bool): string
    decreases |s|
  {
    if |s| == 0 then ""
    else if s[0] == '-' then " " + Scan(s[1..], true)
    else (if atStart then UpperChar(s[0]) else [s[0]]) + Scan(s[1..], false)
  }

  lemma CapitalizeAllCons(a: string, xs: seq<string>)
    ensures CapitalizeAll([a] + xs) == [Capitalize(a)] + CapitalizeAll(xs)
  {
  }

  /** Joining a list of two or more parts puts the separator after the first. */
  lemma JoinCons(a: string, xs: seq<string>, sep: string)
    requires |xs| >= 1
    ensures Join([a] + xs, sep) == a + sep + Join(xs, sep)
  {
    assert ([a] + xs)[1..] == xs;
  }

  /** Scanning agrees with split/map/join, both at a segment start and inside one. */
  lemma {:induction false} ScanSplit(s: string)
    ensures var p := Split(s, '-');
      && Scan(s, true) == Join(CapitalizeAll(p), " ")
      && Scan(s, false) == Join([p[0]] + CapitalizeAll(p[1..]), " ")
    decreases |s|
  {
    if |s| > 0 {
      ScanSplit(s[1..]);
      if s[0] == '-' {
        ScanSplitDash(s);
      } else {
        ScanSplitOther(s);
      }
    }
  }

  lemma ScanSplitDash(s: string)
    requires |s| > 0 && s[0] == '-'
    requires var q := Split(s[1..], '-'); Scan(s[1..], true) == Join(CapitalizeAll(q), " ")
    ensures var p := Split(s, '-');
      && Scan(s, true) == Join(CapitalizeAll(p), " ")
      && Scan(s, false) == Join([p[0]] + CapitalizeAll(p[1..]), " ")
  {
    var q := Split(s[1..], '-');
    var p := [""] + q;
    assert Split(s, '-') == p;
    CapitalizeAllCons("", q);
    assert p[1..] == q;
    JoinCons("", CapitalizeAll(q), " ");
  }

  lemma ScanSplitOther(s: string)
    requires |s| > 0 && s[0] != '-'
    requires var q := Split(s[1..], '-'); Scan(s[1..], false) == Join([q[0]] + CapitalizeAll(q[1..]), " ")
    ensures var p := Split(s, '-');
      && Scan(s, true) == Join(CapitalizeAll(p), " ")
      && Scan(s, false) == Join([p[0]] + CapitalizeAll(p[1..]), " ")
  {
    var q := Split(s[1..], '-');
    var p := [[s[0]] + q[0]] + q[1..];
    assert Split(s, '-') == p;
    assert p[1..] == q[1..];
    var tail := CapitalizeAll(q[1..]);
    assert Capitalize(p[0]) == UpperChar(s[0]) + q[0];
    CapitalizeAllCons(p[0], q[1..]);
    assert ([q[0]] + tail)[1..] == tail;
    JoinPrepend(UpperChar(s[0]), [q[0]] + tail, " ");
    JoinPrepend([s[0]], [q[0]] + tail, " ");
  }

  lemma FormatIsScan(s: string)
    ensures Join(CapitalizeAll(Split(s, '-')), " ") == Scan(s, true)
  {
    ScanSplit(s);
  }

  lemma UpperCharNeverDash(c: char)
    requires c != '-'
    ensures '-' !in UpperChar(c) && |UpperChar(c)| >= 1
  {
  }

  /** Scanning removes every '-'. */
  lemma {:induction false} ScanNoDash(s: string, atStart: bool)
    ensures '-' !in Scan(s, atStart)
    ensures Scan(s, atStart) == "" <==> s == ""
    decreases |s|
  {
    if |s| > 0 {
      ScanNoDash(s[1..], true);
      ScanNoDash(s[1..], false);
      if s[0] != '-' {
        UpperCharNeverDash(s[0]);
      }
    }
  }

  /** No character of `s` expands when upper-cased (true of all ASCII text). */
  predicate CaseStable(s: string)
  {
    forall i | 0 <= i < |s| :: |UpperChar(s[i])| == 1
  }

  /** `s[i]` begins a '-'-separated segment of `s`. */
  predicate SegmentStart(s: string, i: int)
    requires 0 <= i < |s|
  {
    i == 0 || s[i - 1] == '-'
  }

  /** What the formatter writes at position `i` of a case-stable input. */
  function FormattedAt(s: string, i: int): char
    requires 0 <= i < |s| && CaseStable(s)
  {
    if s[i] == '-' then ' '
    else if SegmentStart(s, i) then UpperChar(s[i])[0]
    else s[i]
  }

  /** What `Scan(s, atStart)` writes at position `i`, for case-stable `s`. */
  function ScannedAt(s: string, atStart: bool, i: int): char
    requires 0 <= i < |s| && CaseStable(s)
  {
    if s[i] == '-' then ' '
    else if (if i == 0 then atStart else s[i - 1] == '-') then UpperChar(s[i])[0]
    else s[i]
  }

  lemma {:induction false} ScanPointwise(s: string, atStart: bool)
    requires CaseStable(s)
    ensures |Scan(s, atStart)| == |s|
    ensures forall i | 0 <= i < |s| ::
      Scan(s, atStart)[i] == ScannedAt(s, atStart, i)
    decreases |s|
  {
    if |s| > 0 {
      var t := s[1..];
      assert CaseStable(t) by {
        forall i | 0 <= i < |t| ensures |UpperChar(t[i])| == 1 {
          assert t[i] == s[i + 1];
        }
      }
      ScanPointwise(t, s[0] == '-');
      assert |UpperChar(s[0])| == 1;
      var head := if s[0] == '-' then " " else if atStart then UpperChar(s[0]) else [s[0]];
      var r := Scan(s, atStart);
      assert r == head + Scan(t, s[0] == '-');
      assert r[0] == (if s[0] == '-' then ' ' else if atStart then UpperChar(s[0])[0] else s[0]);
      forall i | 0 <= i < |s|
        ensures r[i] == ScannedAt(s, atStart, i)
      {
        if i == 0 {
          assert r[0] == (if s[0] == '-' then ' ' else if atStart then UpperChar(s[0])[0] else s[0]);
        } else {
          assert r[i] == Scan(t, s[0] == '-')[i - 1];
          assert t[i - 1] == s[i];
          if i > 1 {
            assert t[i - 2] == s[i - 1];
          }
        }
      }
    }
  }

  /**
   * For input whose characters do not expand when upper-cased, formatting
   * keeps the length and works position by position: each '-' becomes one
   * space (so empty segments survive), the first character of each segment
   * is upper-cased, and every other character is left as it is.
   */
  lemma FormatSkillNamePointwise(s: string)
    requires CaseStable(s)
    ensures |FormatSkillName(s)| == |s|
    ensures forall i | 0 <= i < |s| :: FormatSkillName(s)[i] == FormattedAt(s, i)
  {
    FormatIsScan(s);
    var r := FormatSkillName(s);
    assert r == Scan(s, true);
    ScanPointwise(s, true);
    forall i | 0 <= i < |s|
      ensures r[i] == FormattedAt(s, i)
    {
      assert Scan(s, true)[i] == ScannedAt(s, true, i);
    }
  }

  /** Upper-casing an already upper-cased first character changes nothing. */
  lemma UpperCharStable(c: char)
    ensures |UpperChar(c)| >= 1
    ensures UpperChar(UpperChar(c)[0]) == [UpperChar(c)[0]]
  {
  }

  lemma {:induction false} ScanCopies(s: string)
    requires '-' !in s
    ensures Scan(s, false) == s
    decreases |s|
  {
    if |s| > 0 {
      ScanCopies(s[1..]);
    }
  }

  /** Formatting an already formatted name changes nothing. */
  lemma FormatSkillNameIdempotent(s: string)
    ensures FormatSkillName(FormatSkillName(s)) == FormatSkillName(s)
  {
    var r := FormatSkillName(s);
    FormatIsScan(s);
    FormatIsScan(r);
    if r != "" {
      var rest := r[1..];
      assert '-' !in rest;
      ScanCopies(rest);
      assert s != "";
      if s[0] == '-' {
        assert r[0] == ' ';
      } else {
        UpperCharStable(s[0]);
        assert r[0] == UpperChar(s[0])[0];
      }
      assert Scan(r, true) == UpperChar(r[0]) + Scan(rest, false);
      assert r == [r[0]] + rest;
    }
  }

  /** The branch `getArchetypeColor` and `getArchetypeIcon` both take. */
  datatype Archetype = Builder | Refiner | Maintainer | Unclassified

  /** Case-insensitive substring tests in fixed order: builder, refiner, maintainer. */
  function Classify(archetype: string): Archetype
  {
    var lower := Lower(archetype);
    if Contains(lower, "builder") then Builder
    else if Contains(lower, "refiner") then Refiner
    else if Contains(lower, "maintainer") then Maintainer
    else Unclassified
  }

  function ColorOf(a: Archetype): string
  {
    match a
    case Builder => "from-blue-500 to-cyan-500"
    case Refiner => "from-purple-500 to-pink-500"
    case Maintainer => "from-green-500 to-emerald-500"
    case Unclassified => "from-gray-500 to-slate-500"
  }

  function IconOf(a: Archetype): string
  {
    match a
    case Builder => "\U{1F3D7}\U{FE0F}"
    case Refiner => "\U{2728}"
    case Maintainer => "\U{1F6E1}\U{FE0F}"
    case Unclassified => "\U{1F468}\U{200D}\U{1F4BB}"
  }

  /** `getArchetypeColor`: the gradient of the label's classification. */
  function GetArchetypeColor(archetype: string): string
  {
    ColorOf(Classify(archetype))
  }

  /** `getArchetypeIcon`: the emoji of the label's classification. */
  function GetArchetypeIcon(archetype: string): string
  {
    IconOf(Classify(archetype))
  }

  /** `word` occurs somewhere in the lower-cased archetype label. */
  ghost predicate Mentions(archetype: string, word: string)
  {
    exists i :: OccursAt(Lower(archetype), word, i)
  }

  /**
   * The classification is the first of builder, refiner, maintainer that
   * occurs in the lower-cased label, whatever else occurs after it.
   */
  lemma ClassifySpec(archetype: string)
    ensures Classify(archetype) == Builder <==> Mentions(archetype, "builder")
    ensures Classify(archetype) == Refiner <==>
      !Mentions(archetype, "builder") && Mentions(archetype, "refiner")
    ensures Classify(archetype) == Maintainer <==>
      !Mentions(archetype, "builder") && !Mentions(archetype, "refiner") && Mentions(archetype, "maintainer")
    ensures Classify(archetype) == Unclassified <==>
      !Mentions(archetype, "builder") && !Mentions(archetype, "refiner") && !Mentions(archetype, "maintainer")
  {
    var lower := Lower(archetype);
    ContainsSpec(lower, "builder");
    ContainsSpec(lower, "refiner");
    ContainsSpec(lower, "maintainer");
  }

  /**
   * Colour and icon are two views of one classification: each class has its
   * own colour and its own icon, so two labels get the same colour exactly
   * when they get the same icon, exactly when they classify alike.
   */
  lemma ColorAndIconAgree(a: string, b: string)
    ensures GetArchetypeColor(a) == GetArchetypeColor(b) <==> Classify(a) == Classify(b)
    ensures GetArchetypeIcon(a) == GetArchetypeIcon(b) <==> Classify(a) == Classify(b)
  {
  }

  lemma LowerCharIdempotent(c: char)
    ensures LowerChar(LowerChar(c)) == LowerChar(c)
  {
  }

  /** Classification ignores letter case: lower-casing the label first changes nothing. */
  lemma ClassifyIgnoresCase(archetype: string)
    ensures Classify(Lower(archetype)) == Classify(archetype)
  {
    var l := Lower(archetype);
    assert Lower(l) == l by {
      forall i | 0 <= i < |l| ensures Lower(l)[i] == l[i] {
        LowerCharIdempotent(archetype[i]);
      }
    }
  }
}

=== FILE: wrappers.dfy ===
/** Small failure-compatible datatypes shared by every module of the model. */
module Wrappers {

  /** A value that may be absent; models a nullable (`T | null`) field. */
  datatype Option<+T> = None | Some(value: T)

  /** Success with a value, or failure with a reason. */
  datatype Result<+R, +E> = Success(value: R) | Failure(error: E)
}

/**
 * What awaiting a promise produces. The client code only ever distinguishes
 * a thrown `Error` instance (whose `message` it reads) from any other thrown
 * value (for which it substitutes a fixed text).
 */
module Outcomes {
  import opened Wrappers

  /** A value thrown in JavaScript. */
  datatype Thrown = ErrorValue(message: string) | OtherValue

  /** A settled promise: fulfilled with a value or rejected with a thrown value. */
  datatype Outcome<+T> = Ok(value: T) | Err(thrown: Thrown)

  /** `e instanceof Error ? e.message : fallback` */
  function MessageOr(t: Thrown, fallback: string): string
  {
    match t
    case ErrorValue(m) => m
    case OtherValue => fallback
  }

  /** JavaScript truthiness of a `string | null` value: present and not "". */
  predicate TruthyString(s: Option<string>)
  {
    s.Some? && s.value != ""
  }
}
